=== FILE: README.md ===
# Notebook retrieval core

A model of the text-retrieval and citation logic of the notebook server
`apps/server/index.js`. The server:

- ingests sources and chunks them into paragraphs;
- ranks keywords by frequency;
- scores chunks against a question by TF-IDF cosine similarity;
- keeps the best chunks by stable sort then take-`k`;
- picks citations by keyword overlap;
- falls back from the OpenAI reply to the Gemini reply, then to a
  deterministic mock reply, and from a too-short reply to a mock artifact.

The model is purely functional. Strings are `seq<char>`. The server's plain
JavaScript objects become one of two things:

- maps, where they are only looked up (`df`, `idf`);
- entry lists in `Object.entries` order, where their order matters (the
  keyword counts, `tf`, `vec`).

Modules, in dependency order:

| module | file | what it models |
|---|---|---|
| `Base` | base.dfy | `Option`, JavaScript truthiness, `slice`, `join`, `Set` de-duplication |
| `Chars` | chars.dfy | ASCII `toLowerCase`, JavaScript white space and `trim` |
| `Paragraphs` | paragraphs.dfy | `splitParagraphs` |
| `Sentences` | sentences.dfy | `splitSentences` |
| `Tokens` | tokens.dfy | `tokenize` |
| `Ranking` | ranking.dfy | stable descending `sort` followed by `slice(0, k)` |
| `ObjectKeys` | object_keys.dfy | the key order of `Object.entries` |
| `Keywords` | keywords.dfy | `topKeywords` and its stop-word set |
| `Corpus` | corpus.dfy | sources, chunks, `ingestSource`, `findSources` |
| `Tfidf` | tfidf.dfy | `buildIdf`, `vectorize`, `cosine`, `retrieveTopChunks` |
| `Citations` | citations.dfy | `pickCitations` |
| `Generation` | generation.dfy | `mockLLMGenerate`, `llmGenerate`, the `topK` clamp, `mockGenerate` |
| `Handlers` | handlers.dfy | the logic of the `/api/ask` and `/api/generate` handlers |

Fidelity choices:

- **Key order.** `Object.entries` lists integer-like keys first, in
  ascending numeric order, and then the other keys in insertion order. The
  model follows this rule (`ObjectKeys.EntriesOrder`), so tie-breaking among
  keywords is the program's own.
- **Ties.** A stable sort over the count object suggests that keyword ties
  keep first-seen order. That holds only for tokens that are not array
  indices such as `"42"`. `Base.Dedup` keeps first-seen order, and
  `ObjectKeys.EntriesOrderPlain` states when `Object.entries` keeps it too.
- **Lowercasing** is ASCII lowercasing. After lowering there are no capitals
  left, so the wider class `[a-zA-Z0-9一-龥]` used by `topKeywords`
  and `pickCitations` finds the same runs as `tokenize`. One `Tokenize` serves
  all three.
- **Logarithm and square root.** `Math.log` and `Math.sqrt` are a parameter
  (`Tfidf.Numerics`) of which only the signs are known: the logarithm is
  positive above 1 and the square root is positive above 0. Weights are exact
  reals, and the ranking facts depend only on those signs.
- **Remote replies, ids and clocks.** The two remote replies are `Option`
  parameters (`Generation.Backends`); an empty reply counts as absent. Ids,
  chunk ids and timestamps are parameters too.

## Model

| member | source | states |
|---|---|---|
| Paragraphs.NormalizeNewlines | apps/server/index.js:96 | The result is the text with every `\r` that directly precedes a `\n` deleted (`Paragraphs.DropPairedCr`); it is never longer, and text without `\r\n` is unchanged |
| Paragraphs.DropPairedCrAppend | apps/server/index.js:96 | Deleting paired `\r`s distributes over a concatenation whose left part does not end in `\r` |
| Paragraphs.NormalizeCrJoin | apps/server/index.js:96 | Paragraphs joined with `\r\n\r\n` normalise to the same paragraphs joined with `\n\n` |
| Paragraphs.SameNormalForm | apps/server/index.js:94-100 | Two texts with the same normalised form split into the same paragraphs |
| Paragraphs.WindowsRoundTrip | apps/server/index.js:94-100 | Well-formed paragraphs joined with `\r\n\r\n` split back into the same paragraphs |
| Paragraphs.WindowsExample | apps/server/index.js:94-100 | `"a\r\n\r\nb"` splits into the two paragraphs `"a"` and `"b"` |
| Paragraphs.SplitBlank | apps/server/index.js:97 | Splitting at runs of two or more line feeds gives at least one piece, none containing a blank line; no piece contains `\r\n` if the text did not; the pieces themselves are fixed by `Paragraphs.SplitBlankCollapse` |
| Paragraphs.SplitBlankCollapse | apps/server/index.js:97 | For every text, the pieces rejoined with `\n\n` are the text with each run of two or more line feeds shortened to exactly two; since no piece holds a blank line, this determines every piece, and no text is lost or reordered |
| Paragraphs.SplitParagraphs | apps/server/index.js:94-100 | Absent or empty text gives no paragraphs; every paragraph is non-empty, trimmed and free of blank lines, and free of `\r\n` when the text was; its content follows from `Paragraphs.SplitBlankCollapse` and is pinned on an example by `Paragraphs.SplitParagraphsExample` |
| Paragraphs.SplitParagraphsExample | apps/server/index.js:94-100 | `" x\n\ny"` splits into `x` and `y`: a block that starts with a space is trimmed, not dropped |
| Paragraphs.SplitBlankJoin | apps/server/index.js:97 | Splitting at blank-line runs undoes joining paragraphs with `"\n\n"` |
| Paragraphs.ParagraphsRoundTrip | apps/server/index.js:94-100 | Joining well-formed paragraphs with a blank line and splitting again returns the same list |
| Paragraphs.SplitParagraphsIdempotent | apps/server/index.js:94-100 | When no paragraph of the text contains `\r\n` (true of any text without `\r\n`; false only for text such as `"a\r\r\nb"`), rejoining its paragraphs and splitting again gives the same paragraphs |
| Sentences.SplitAtBreaks | apps/server/index.js:104 | Splitting at white space after a terminator always yields at least one piece |
| Sentences.SplitSentences | apps/server/index.js:102-108 | Keeping zero sentences gives the empty string; the clipped text is always trimmed |
| Sentences.SentencePiecesWellFormed | apps/server/index.js:103-106 | Every text splits into non-empty, trimmed sentences with no break inside, each but the last ending in one of `.!?。！？` |
| Sentences.SplitAtBreaksJoin | apps/server/index.js:104 | Splitting undoes joining well-formed sentences with a space |
| Sentences.SentencesRoundTrip | apps/server/index.js:103-106 | Well-formed sentences joined with a space split back into the same sentences |
| Sentences.ClipSentences | apps/server/index.js:102-108 | The clipped text's sentences are the first `max` sentences of the text, `min(max, n)` of them; clipping the clipped text again changes nothing |
| Chars.LowerAll | apps/server/index.js:125 | Lowering keeps the length and lowers each character in place |
| Chars.Trim | apps/server/index.js:98 | `trim` removes exactly the leading and trailing white space; the result is empty iff the text is all white space, and trimmed text is unchanged |
| Tokens.Words | apps/server/index.js:125 | Every match is a non-empty run of `[a-z0-9一-龥]` |
| Tokens.Tokenize | apps/server/index.js:124-126 | Every token is a non-empty run of lower-case word characters |
| Tokens.WordsAreFields | apps/server/index.js:125 | The matches are exactly the non-empty pieces of the text split at each non-word character: no word character is lost and no run is cut or merged |
| Tokens.TokenizeFields | apps/server/index.js:124-126 | Tokenising is splitting the lowered text at non-word characters and dropping empty pieces |
| Tokens.TokenizeExample | apps/server/index.js:124-126 | `"A,b"` tokenises to `a` and `b` |
| Tokens.WordsJoin | apps/server/index.js:125 | Words joined with single spaces are matched back as exactly those words |
| Tokens.TokenizeRoundTrip | apps/server/index.js:124-126 | Tokenising the space-joined tokens of a text gives the same tokens |
| Chars.Lower | apps/server/index.js:113 | A capital letter is lowered to the letter 32 code points above it, any other character is kept, and the result is never a capital |
| Chars.LoweredClassesAgree | apps/server/index.js:113 | On lowered text, the keyword class `[a-zA-Z0-9一-龥]` and the token class `[a-z0-9一-龥]` accept the same characters |
| Tokens.NoCapitals | apps/server/index.js:125 | Space-joined tokens contain no capital letter, so tokenising them again sees only word characters |
| Ranking.SortDesc | apps/server/index.js:118 | The sort returns a permutation of its input |
| Ranking.SortDescSorted | apps/server/index.js:118 | The sorted sequence is in non-increasing key order |
| Ranking.SortDescTier | apps/server/index.js:118 | The sort is stable: the elements sharing a key keep their relative order |
| Ranking.SortDescTiers | apps/server/index.js:118 | Stability holds for every key value at once |
| Ranking.SortDescNoDup | apps/server/index.js:118 | Sorting distinct elements yields distinct elements |
| Ranking.TopK | apps/server/index.js:118-119 | Sort-then-take keeps `min(k, n)` elements, all drawn from the input |
| Ranking.TopKRanks | apps/server/index.js:172-173 | Sort-then-take is a top-`k` ranking: non-increasing, ties in input order, no element left out ranking above one kept |
| Ranking.TopKFrom | apps/server/index.js:172-173 | Every element kept is an element of the input |
| Ranking.TopKOrdered | apps/server/index.js:172-173 | An element kept earlier has a key at least as large as one kept later |
| Ranking.TopKAbove | apps/server/index.js:172-173 | An element left out has a key no larger than any element kept |
| Ranking.TopKNoDup | apps/server/index.js:172-173 | Ranking distinct elements keeps them distinct |
| Ranking.TopKAllEqual | apps/server/index.js:172-173 | When every key is equal, the ranking is the first `k` elements in input order |
| ObjectKeys.IndexKeys | apps/server/index.js:117 | The array-index group holds exactly the input's integer-like keys, distinct if the input was, and is empty when there are none |
| ObjectKeys.NamedKeys | apps/server/index.js:117 | The other group holds exactly the input's remaining keys, distinct if the input was, and is the whole input when no key is integer-like |
| ObjectKeys.SplitKeysInOrder | apps/server/index.js:117 | Each group is a subsequence of the keys: it keeps their insertion order |
| ObjectKeys.SplitKeysPermutes | apps/server/index.js:117 | Together the two groups are a permutation of the keys |
| ObjectKeys.EntriesOrder | apps/server/index.js:117 | `Object.entries` lists every key once: the integer-like keys first in ascending numeric value, then exactly `NamedKeys(keys)`, which keeps insertion order (`ObjectKeys.SplitKeysInOrder`) |
| ObjectKeys.EntriesOrderPlain | apps/server/index.js:117 | Without integer-like keys, entries come back in insertion order |
| Base.Dedup | apps/server/index.js:113-116 | The keys of the count object: each word once, exactly the words of the input, in order of first occurrence |
| Keywords.ContentWords | apps/server/index.js:113-114 | A word survives the stop-word filter iff it is a token and not a stop word, with its count unchanged |
| Keywords.KeysAreContent | apps/server/index.js:112-117 | The count object's keys are exactly the non-stop-word tokens |
| Keywords.Ranked | apps/server/index.js:117-120 | The ranked keys are `min(k, distinct content words)` distinct words |
| Keywords.TopKeywords | apps/server/index.js:110-121 | At most `k` keywords, no two equal |
| Keywords.KeywordCount | apps/server/index.js:117-120 | Exactly `k` keywords, or every distinct content word when there are fewer |
| Keywords.KeywordsAreContent | apps/server/index.js:113-115 | Every keyword is a token of the text and not a stop word |
| Keywords.KeywordsOrdered | apps/server/index.js:117-118 | Keywords come in non-increasing frequency |
| Keywords.KeywordsTop | apps/server/index.js:117-119 | No content word left out is more frequent than any keyword |
| Keywords.KeywordTies | apps/server/index.js:117-118 | Keywords of equal frequency keep the `Object.entries` order of the count object |
| Corpus.SourceText | apps/server/index.js:242 | A source's text is the content when it is non-empty, else a placeholder starting "Pending fetch for "; never empty |
| Corpus.MakeChunks | apps/server/index.js:244 | Chunk `i` has index `i`, the `i`-th paragraph as text, the new source's id and the `i`-th chunk id |
| Corpus.NewSource | apps/server/index.js:239-246 | The new source has the given id, its name defaults to the id, its chunks are the paragraphs of its text numbered from 0, and its keywords are the text's eight top keywords |
| Corpus.IngestSource | apps/server/index.js:239-249 | Ingestion appends exactly one source, the new one, and leaves the earlier sources untouched |
| Corpus.FindSources | apps/server/index.js:251-255 | Absent ids select every source in order; otherwise a source is selected iff its id is listed, and an empty list selects nothing |
| Corpus.Select | apps/server/index.js:252-254 | Absent ids keep every source; otherwise a source is kept iff its id is listed, sources are never duplicated, and an empty list keeps nothing |
| Corpus.IngestThenFind | apps/server/index.js:239-255 | A freshly ingested source with a new id is found, alone, by its id |
| Corpus.IngestKeepsSelection | apps/server/index.js:239-255 | A selection by ids that do not name the new source is unchanged by ingestion |
| Corpus.ChunksRebuildText | apps/server/index.js:243-244 | When the chunks are the paragraphs of the source text and none contains `\r\n`, the chunk texts rejoined with blank lines chunk back into the same texts |
| Corpus.AllChunks | apps/server/index.js:167 | A chunk is in the corpus iff it belongs to one of the selected sources |
| Corpus.AllChunksAppend | apps/server/index.js:167 | The corpus of two source lists is the first list's corpus followed by the second's |
| Corpus.AllChunksSingle | apps/server/index.js:167 | One source contributes exactly its chunks, in order; with the append lemma, the corpus runs source by source |
| Tfidf.ChunksContaining | apps/server/index.js:131-133 | A term's document frequency is at most the chunk count, and positive iff some chunk contains the term |
| Tfidf.DocFreqs | apps/server/index.js:129-134 | `df` has exactly the corpus terms as keys, each mapped to the number of chunks containing it, between 1 and the chunk count |
| Tfidf.CorpusSize | apps/server/index.js:130 | `N` is at least 1, also for an empty corpus |
| Tfidf.Idf | apps/server/index.js:137 | Every idf weight is strictly positive |
| Tfidf.BuildIdf | apps/server/index.js:128-140 | The idf table has exactly the corpus terms as keys, each weight given by `N` and the term's document frequency, all positive |
| Tfidf.MaxCount | apps/server/index.js:145-146 | `max` is at least 1 and bounds the count of every term, and some term attains it |
| Tfidf.WeightBounds | apps/server/index.js:150 | A term's weight lies above half its idf and at most its idf |
| Tfidf.Vectorize | apps/server/index.js:142-154 | A vector holds exactly the text's terms with a nonzero idf, each once, each weighted between half its idf and its idf |
| Tfidf.DotSign | apps/server/index.js:158-159 | The dot product of two positive vectors is non-negative, and positive iff they share a term |
| Tfidf.SumSquaresSign | apps/server/index.js:160-162 | A positive vector's squared norm is positive iff the vector is non-empty |
| Tfidf.CosineOfSign | apps/server/index.js:163 | The guarded quotient is non-negative, and positive iff the dot product and both norms are |
| Tfidf.Cosine | apps/server/index.js:156-164 | A vector with squared norm 0 scores 0 against any vector, in either position |
| Tfidf.CosineSign | apps/server/index.js:156-164 | The cosine of two positive vectors is non-negative, and positive iff they share a term |
| Tfidf.CosineEmpty | apps/server/index.js:163 | An empty vector scores 0 against anything |
| Tfidf.CorpusVectorPositive | apps/server/index.js:147-152 | Every weight of a vector built from a corpus idf table is positive |
| Tfidf.RetrieveTopChunks | apps/server/index.js:166-174 | Retrieval is a top-`k` ranking of the corpus chunks by cosine score, stable on ties; no chunks gives none; every chunk returned is a corpus chunk, without repeats when the corpus has none |
| Tfidf.RelevanceSign | apps/server/index.js:169-171 | A corpus chunk scores at least 0, and above 0 iff it shares a token with the query |
| Tfidf.MatchesRankFirst | apps/server/index.js:171-173 | Chunks sharing a term with the query rank before those that do not, and if one left out shares a term then every chunk kept does |
| Tfidf.EmptyQueryVector | apps/server/index.js:148-152 | A query with no term in the vocabulary has an empty vector |
| Tfidf.OutOfVocabularyQuery | apps/server/index.js:142-174 | A query sharing no term with the corpus returns the first `k` chunks in corpus order |
| Citations.QueryTerms | apps/server/index.js:258 | At most sixteen distinct query keywords |
| Citations.Overlap | apps/server/index.js:262-263 | The overlap is exactly the number of keyword positions whose keyword is a word of the chunk; so at most the keyword count, and positive iff some keyword is such a word |
| Citations.PresentCons | apps/server/index.js:263 | The keywords found among the words are the first one, if found, plus those found in the rest |
| Citations.CandidatesAppend | apps/server/index.js:260-268 | The candidates of two source lists are the first list's candidates followed by the second's |
| Citations.CandidatesSingle | apps/server/index.js:261-266 | One source contributes exactly the candidates of its chunks (`Citations.ChunkCandidates`), whose order the two lemmas below fix |
| Citations.Cite | apps/server/index.js:262-265 | A chunk's citation names its source by id and name, carries the chunk's first `min(280, |text|)` characters, and scores at most the keyword count, above 0 iff some keyword is a word of the chunk |
| Citations.ChunkCandidates | apps/server/index.js:261-266 | A source's chunks yield at most one candidate each |
| Citations.ChunkCandidatesAppend | apps/server/index.js:261-266 | The candidates of two runs of chunks are the first run's candidates followed by the second's |
| Citations.ChunkCandidatesSingle | apps/server/index.js:262-266 | One chunk yields its citation when its overlap is positive and nothing otherwise; with the append lemma, candidates come chunk by chunk in chunk order |
| Citations.Candidates | apps/server/index.js:260-268 | The sources yield at most one candidate per chunk of the corpus |
| Citations.ChunkCandidatesSound | apps/server/index.js:261-266 | Each candidate of a source is the citation of one of its chunks, with positive score |
| Citations.ChunkCandidatesComplete | apps/server/index.js:261-266 | Each chunk with positive overlap yields a candidate |
| Citations.CandidatesSound | apps/server/index.js:260-268 | Every candidate cites a chunk of the given sources, with positive score |
| Citations.CandidatesComplete | apps/server/index.js:260-268 | Every chunk of the given sources that shares a keyword is a candidate |
| Citations.PickedCiteChunks | apps/server/index.js:264-270 | Citations drawn from the candidates name their owning source and chunk, and score between 1 and the keyword count |
| Citations.Pick | apps/server/index.js:259-270 | At most `max` citations form a top-`max` ranking of the candidates by score, stable on ties; each names its owning source, carries a snippet that is a prefix of its chunk of length `min(280, |text|)`, and scores between 1 and the keyword count |
| Citations.PickCitations | apps/server/index.js:257-271 | Every citation scores between 1 and 16 |
| Citations.DroppedOnlyAtCap | apps/server/index.js:264-270 | A chunk sharing a keyword is left out only when `max` citations were kept |
| Citations.NoOverlapNoCitations | apps/server/index.js:264-270 | When no chunk contains a query keyword, there are no citations |
| Generation.Prompt | apps/server/index.js:178 | Empty parts are dropped, and two parts are joined by a blank line |
| Generation.MockLlmText | apps/server/index.js:177-184 | The mock reply is the header followed by the prompt's first four sentences (fewer if it has fewer), trimmed |
| Generation.LlmGenerate | apps/server/index.js:224-236 | The OpenAI reply when present, else the Gemini reply when present, else the mock reply; never empty |
| Generation.MockReplyFallback | apps/server/index.js:498 | Without remote replies, the 30-character test falls back to the mock artifact iff the echoed sentences come to fewer than 15 characters |
| Generation.EffectiveK | apps/server/index.js:465 | The clamped `k` lies in 4..20, is 12 for a missing or zero `topK`, and is `topK` itself inside 4..20 |
| Generation.EffectiveKIdempotent | apps/server/index.js:465 | Clamping a clamped `k` changes nothing |
| Generation.ArtifactTitle | apps/server/index.js:338 | The title is the option's title when non-empty; else the first source's name when there is a first source and its name is non-empty; else `概览`, even when a later source has a name; never empty |
| Generation.Summary | apps/server/index.js:342 | A summary holds the first `n` sentences of the text |
| Generation.Leads | apps/server/index.js:419 | One lead for each of the first three paragraphs (`min(3, paragraphs)` leads); lead `i` is exactly the first sentence of paragraph `i` |
| Generation.AudioArtifact | apps/server/index.js:341-351 | One chapter per source, numbered from 1, summarising its first three sentences; the duration is `max(3, 2·chapters)` minutes |
| Generation.VideoArtifact | apps/server/index.js:352-361 | One scene per source, numbered from 1, voicing its first three sentences |
| Generation.MindMapArtifact | apps/server/index.js:362-378 | Centred on the title, one branch per source with its name and one leaf of at most one sentence for each of its first three paragraphs |
| Generation.EvidenceLine | apps/server/index.js:387 | A quoted citation is its source name in brackets followed by its snippet |
| Generation.ReportArtifact | apps/server/index.js:379-391 | The style defaults to `企业报告`; the summary and background are the first 5 and 6 sentences of the sources; one insight per keyword and one evidence line per citation |
| Generation.FlashcardsArtifact | apps/server/index.js:392-403 | One card per keyword, in order, with kinds cycling by `i % 3` |
| Generation.CardKindsCycle | apps/server/index.js:397 | Flashcard kinds repeat every three cards, starting with a concept |
| Generation.QuizArtifact | apps/server/index.js:404-415 | Exactly four items: single choice, true/false answered false, fill-in, and short answer answered by the summary |
| Generation.SlidesArtifact | apps/server/index.js:416-425 | `|sources| + 2` slides: the keyword overview, one per source with its name and at most three points, and a closing slide of three points; the template defaults to `商务` |
| Generation.MockGenerate | apps/server/index.js:337-428 | Unknown kinds yield only a note; known kinds cite the sources against title and text and have their shape (chapters, scenes, branches, at most 6 insights, at most 8 cards, 4 quiz items, `|sources| + 2` slides) |
| Generation.MockCitationsFromSources | apps/server/index.js:338-340 | A mock artifact carries at most six citations, each of a chunk of the given sources |
| Handlers.CitedSources | apps/server/index.js:468 | A source is cited iff it is selected and owns a retrieved chunk; the cited sources keep the selection order |
| Handlers.Ask | apps/server/index.js:461-471 | A missing or empty question is a 400 "Missing question"; otherwise the answer is non-empty with at most six citations |
| Handlers.AskRetrieves | apps/server/index.js:464-468 | The answer retrieves `min(k, chunks)` chunks for the clamped `k`, all from the selected sources, and cites only selected sources that own a retrieved chunk |
| Handlers.AskCitesRetrievedSources | apps/server/index.js:468-469 | Every citation names a selected source that owns a retrieved chunk |
| Handlers.PickNamesCited | apps/server/index.js:468-469 | Citations picked from sources that own retrieved chunks name such a source |
| Handlers.Generate | apps/server/index.js:489-505 | A missing type is a 400 "Missing type"; with a type, `options: null` makes building the prompt throw, which the router answers with a 500; a reply shorter than 30 characters once trimmed yields the mock artifact; otherwise the reply is returned with its type and at most six citations scored 1..16 |
| Handlers.UnsentOptions | apps/server/index.js:318 | Options that were not sent behave exactly as an empty options object |
| Handlers.GenerateMock | apps/server/index.js:498-500 | A reply that needs the fallback is replaced by the mock artifact of the selected sources |
| Handlers.OfflineGenerate | apps/server/index.js:496-500 | Without remote replies the result is the mock artifact iff the echoed prompt sentences come to fewer than 15 characters |
| Handlers.RemoteReplyKept | apps/server/index.js:496-504 | A remote reply of at least 30 trimmed characters is returned as the generated text |

## Left out

- HTTP routing, request parsing, responses and static files (`apps/server/index.js:40-91`, `:431-528`). The handlers keep only their decisions: the 400 messages, the 500 of a thrown error, and the values they return. The text of a 500's message is the engine's error text and is not modelled.
- Persistence (`ensureData`, `loadData`, `saveData`). The store is a value, and the caller saves it.
- The OpenAI and Gemini transports (`openaiChat`, `googleGenAI`). Their replies are `Option<string>` parameters.
- `uid` and `new Date().toISOString()`. Ids, chunk ids and timestamps are parameters.
- The prompt templates (`buildPromptFromSources`, `buildPromptFromContexts`, `buildGeneratorPrompt`). They are string templating, so the handlers take the finished `system` and `user` strings as parameters.
- `formatAnswerWithVariants`. It renders the answer for display; `Handlers.Ask` returns the parts it renders.
- The JSON branch of `mockLLMGenerate`. Every caller in the file asks for text.
- The source summary route (`:474-487`). It is a handler whose one decision is `out || naive`, and it adds nothing beyond `llmGenerate`.
- The rendered text of mock artifacts (audio script, video outline, mermaid source, slide markdown, card and quiz wording). The model keeps the structure the text is rendered from.
- Numeric values of `Math.log`, `Math.sqrt` and floating-point arithmetic. Weights are exact reals, and logarithm and square root are known only by their signs, so no numeric equality of scores is stated.
- A `topK` that is not an integer, such as a string or a fraction. `Generation.EffectiveK` takes an optional integer.
- Non-ASCII case mapping in `toLowerCase`. Lowercasing is ASCII only.
- String lengths: the model counts Unicode characters, while JavaScript counts UTF-16 code units. Outside the Basic Multilingual Plane the two differ: for `trim().length < 30` (`:498`, `Generation.NeedsMock`), for the 280-unit snippet `slice(0, 280)` (`:265`, `Citations.Pick`), and for the 15-character bound of `Generation.MockReplyFallback`. All text the source itself writes lies inside that plane, and so does the range U+4E00 to U+9FA5 that tokens match; CJK ideographs of Extension B and later (U+20000 and up) lie outside it.
- `Handlers.Generate`: its contract states when the mock artifact is returned, not which one. `Handlers.GenerateMock` states that it is the mock artifact of the selected sources.
- `Tfidf.Vectorize`: weights are bounded by the idf, not computed exactly, because the frequency quotient is a floating-point value in the source.
- Embedding providers, an embedding cache, vector stores and multi-step flow orchestration. They are not in `apps/server/index.js`.
- The web client `apps/web/public/app.js`. It is DOM and fetch code.

=== FILE: base.dfy ===
/**
 * Small shared vocabulary: an Option type whose empty-string case mirrors
 * JavaScript truthiness, integer helpers, taking a prefix, joining strings
 * with a separator, duplicate-freedom and first-occurrence deduplication.
 */
module Base {

  /** A value that may be absent (`null` / `undefined` in the server). */
  datatype Option<+T> = None | Some(value: T)

  /** `s || fallback` for a possibly absent string: `""` is falsy, like `null`. */
  function OrElse(o: Option<string>, fallback: string): (r: string)
    ensures o.Some? && o.value != "" ==> r == o.value
    ensures (o.None? || o.value == "") ==> r == fallback
  {
    if o.Some? && o.value != "" then o.value else fallback
  }

  /** True when the string is present and non-empty, i.e. truthy. */
  predicate Truthy(o: Option<string>) {
    o.Some? && o.value != ""
  }

  function Min(a: int, b: int): int { if a <= b then a else b }

  function Max(a: int, b: int): int { if a >= b then a else b }

  /** `xs.slice(0, k)` for a non-negative `k`. */
  function Take<T>(xs: seq<T>, k: nat): (r: seq<T>)
    ensures r <= xs
    ensures |r| == Min(k, |xs|)
  {
    if k <= |xs| then xs[..k] else xs
  }

  /** `xs.join(sep)`. */
  function Join(xs: seq<string>, sep: string): (r: string)
    ensures |xs| == 0 ==> r == ""
    ensures |xs| == 1 ==> r == xs[0]
  {
    if |xs| == 0 then ""
    else if |xs| == 1 then xs[0]
    else xs[0] + sep + Join(xs[1..], sep)
  }

  /** Keeps the non-empty strings, in order (`.filter(Boolean)`). */
  function NonEmpty(xs: seq<string>): (r: seq<string>)
    ensures forall i :: 0 <= i < |r| ==> r[i] != ""
    ensures forall s :: s in r <==> s in xs && s != ""
    ensures (forall i :: 0 <= i < |xs| ==> xs[i] != "") ==> r == xs
  {
    if |xs| == 0 then []
    else if xs[0] == "" then NonEmpty(xs[1..])
    else [xs[0]] + NonEmpty(xs[1..])
  }

  ghost predicate NoDup<T>(xs: seq<T>) {
    forall i, j :: 0 <= i < j < |xs| ==> xs[i] != xs[j]
  }

  /**
   * The distinct elements of `xs` in order of first occurrence: the key
   * order of a JavaScript `Set` or of a plain object filled from `xs`.
   */
  function Dedup<T(==)>(xs: seq<T>): (r: seq<T>)
    ensures NoDup(r)
    ensures forall i :: 0 <= i < |r| ==> r[i] in xs
    ensures forall i :: 0 <= i < |xs| ==> xs[i] in r
    ensures |r| <= |xs|
    // first-seen order: an element is listed after another only if it was
    // first seen after that other's first occurrence
    ensures forall i, j :: 0 <= i < j < |r| ==> FirstSeenBefore(xs, r[i], r[j])
  {
    if |xs| == 0 then []
    else
      var prefix := xs[..|xs| - 1];
      var d := Dedup(prefix);
      var x := xs[|xs| - 1];
      assert xs == prefix + [x];
      if x in d then
        forall i, j | 0 <= i < j < |d| ensures FirstSeenBefore(xs, d[i], d[j]) {
          FirstSeenExtends(prefix, xs, d[i], d[j]);
        }
        d
      else
        var r := d + [x];
        forall i, j | 0 <= i < j < |r| ensures FirstSeenBefore(xs, r[i], r[j]) {
          if j < |d| {
            FirstSeenExtends(prefix, xs, d[i], d[j]);
          } else {
            var a :| 0 <= a < |prefix| && prefix[a] == d[i];
            assert x !in prefix;
            assert xs[..a + 1] == prefix[..a + 1];
          }
        }
        r
  }

  /** `x` occurs in `xs` at a position where `y` has not occurred yet. */
  ghost predicate FirstSeenBefore<T>(xs: seq<T>, x: T, y: T) {
    exists a :: 0 <= a < |xs| && xs[a] == x && y !in xs[..a + 1]
  }

  lemma FirstSeenExtends<T>(prefix: seq<T>, xs: seq<T>, x: T, y: T)
    requires prefix <= xs && FirstSeenBefore(prefix, x, y)
    ensures FirstSeenBefore(xs, x, y)
  {
    var a :| 0 <= a < |prefix| && prefix[a] == x && y !in prefix[..a + 1];
    assert xs[..a + 1] == prefix[..a + 1];
  }

  /** `a` is `b` with some elements left out, the rest in their order. */
  ghost predicate IsSubsequence<T>(a: seq<T>, b: seq<T>)
    decreases |b|
  {
    |a| == 0 || (|b| > 0 && if a[0] == b[0] then IsSubsequence(a[1..], b[1..]) else IsSubsequence(a, b[1..]))
  }

  lemma ConsNoDup<T>(a: T, t: seq<T>)
    requires a !in t && NoDup(t)
    ensures NoDup([a] + t)
  {
    var r := [a] + t;
    forall i, j | 0 <= i < j < |r|
      ensures r[i] != r[j]
    {
      if i == 0 {
        assert r[j] == t[j - 1];
      } else {
        assert r[i] == t[i - 1] && r[j] == t[j - 1];
      }
    }
  }

  lemma AppendNoDup<T>(a: seq<T>, b: seq<T>)
    requires NoDup(a) && NoDup(b)
    requires forall i :: 0 <= i < |a| ==> a[i] !in b
    ensures NoDup(a + b)
  {
    var r := a + b;
    forall i, j | 0 <= i < j < |r|
      ensures r[i] != r[j]
    {
      if j >= |a| && i < |a| {
        assert r[j] == b[j - |a|];
      }
    }
  }

  /** Every element of `a` plus one. */
  function Shift(a: set<nat>): set<nat>
  {
    set i | i in a :: i + 1
  }

  /** Shifting a set of naturals by one keeps its size. */
  lemma ShiftedCard(a: set<nat>)
    ensures |Shift(a)| == |a|
  {
    if a != {} {
      var x :| x in a;
      var b := a - {x};
      ShiftedCard(b);
      forall y | y in Shift(a) ensures y in Shift(b) + {x + 1} {
        var i :| i in a && y == i + 1;
        if i != x { assert i in b; }
      }
      assert Shift(a) == Shift(b) + {x + 1};
      assert x + 1 !in Shift(b);
      assert a == b + {x} && x !in b;
    }
  }
}

=== FILE: chars.dfy ===
/**
 * Character classes and trimming as the server's regular expressions and
 * `String.prototype.trim` see them.
 */
module Chars {

  /**
   * JavaScript white space: the WhiteSpace and LineTerminator code points,
   * which is what both `\s` and `trim()` strip.
   */
  predicate IsSpace(c: char) {
    || c == ' ' || c == '\t' || c == '\n' || c == '\U{B}' || c == '\U{C}' || c == '\r'
    || c == '\U{A0}' || c == '\U{1680}' || ('\U{2000}' <= c <= '\U{200A}')
    || c == '\U{2028}' || c == '\U{2029}' || c == '\U{202F}' || c == '\U{205F}'
    || c == '\U{3000}' || c == '\U{FEFF}'
  }

  /** The characters after which a sentence may end: `[.!?。！？]`. */
  predicate IsTerminator(c: char) {
    c == '.' || c == '!' || c == '?' || c == '\U{3002}' || c == '\U{FF01}' || c == '\U{FF1F}'
  }

  /** A character of a token after lowering: `[a-z0-9一-龥]`. */
  predicate IsWordChar(c: char) {
    ('a' <= c <= 'z') || ('0' <= c <= '9') || ('\U{4E00}' <= c <= '\U{9FA5}')
  }

  predicate IsUpper(c: char) { 'A' <= c <= 'Z' }

  /** A character of the wider class `[a-zA-Z0-9一-龥]` of `topKeywords` and `pickCitations`. */
  predicate IsKeywordChar(c: char) {
    IsWordChar(c) || IsUpper(c)
  }

  /** ASCII lowering of one character. */
  function Lower(c: char): (r: char)
    ensures !IsUpper(r)
    ensures !IsUpper(c) ==> r == c
    ensures IsUpper(c) ==> r as int == c as int + 32
  {
    if IsUpper(c) then (c as int + 32) as char else c
  }

  /** `toLowerCase()`, restricted to the ASCII letters. */
  function LowerAll(s: string): (r: string)
    ensures |r| == |s|
    ensures forall i :: 0 <= i < |s| ==> r[i] == Lower(s[i])
  {
    if |s| == 0 then "" else [Lower(s[0])] + LowerAll(s[1..])
  }

  /**
   * On `toLowerCase()` output the wider class `[a-zA-Z0-9一-龥]` accepts
   * exactly the characters `[a-z0-9一-龥]` accepts, so both patterns find the
   * same runs.
   */
  lemma LoweredClassesAgree(s: string)
    ensures forall i :: 0 <= i < |LowerAll(s)| ==> (IsKeywordChar(LowerAll(s)[i]) <==> IsWordChar(LowerAll(s)[i]))
  {
  }

  /** Lowering changes nothing in a string without capitals. */
  lemma LowerAllIdentity(s: string)
    requires forall i :: 0 <= i < |s| ==> !IsUpper(s[i])
    ensures LowerAll(s) == s
  {
  }

  /** Neither end of `s` is white space. */
  predicate IsTrimmed(s: string) {
    |s| == 0 || (!IsSpace(s[0]) && !IsSpace(s[|s| - 1]))
  }

  /** Number of white-space characters that open `s`. */
  function LeadingSpace(s: string): (n: nat)
    ensures n <= |s|
    ensures forall i :: 0 <= i < n ==> IsSpace(s[i])
    ensures n < |s| ==> !IsSpace(s[n])
  {
    if |s| == 0 || !IsSpace(s[0]) then 0 else 1 + LeadingSpace(s[1..])
  }

  /** Number of white-space characters that close `s`. */
  function TrailingSpace(s: string): (n: nat)
    ensures n <= |s|
    ensures forall i :: |s| - n <= i < |s| ==> IsSpace(s[i])
    ensures n < |s| ==> !IsSpace(s[|s| - n - 1])
  {
    if |s| == 0 || !IsSpace(s[|s| - 1]) then 0 else 1 + TrailingSpace(s[..|s| - 1])
  }

  /** Start and end of the trimmed span of `s`. */
  function TrimStart(s: string): nat { LeadingSpace(s) }

  function TrimEnd(s: string): nat
  {
    if LeadingSpace(s) == |s| then |s| else |s| - TrailingSpace(s)
  }

  /** `s.trim()`. */
  function Trim(s: string): (r: string)
    ensures TrimStart(s) <= TrimEnd(s) <= |s|
    ensures r == s[TrimStart(s)..TrimEnd(s)]
    ensures IsTrimmed(r)
    ensures r == "" <==> forall i :: 0 <= i < |s| ==> IsSpace(s[i])
    ensures IsTrimmed(s) ==> r == s
  {
    var a := LeadingSpace(s);
    if a == |s| then ""
    else
      var b := |s| - TrailingSpace(s);
      assert !IsSpace(s[a]);
      s[a..b]
  }

  /** Trims every piece (`.map((s) => s.trim())`). */
  function TrimAll(xs: seq<string>): (r: seq<string>)
    ensures |r| == |xs|
    ensures forall i :: 0 <= i < |xs| ==> r[i] == Trim(xs[i])
  {
    if |xs| == 0 then [] else [Trim(xs[0])] + TrimAll(xs[1..])
  }

  /** Trimming a string that ends in a non-space character keeps that character last. */
  lemma TrimKeepsLast(s: string)
    requires |s| > 0 && !IsSpace(s[|s| - 1])
    ensures Trim(s) != "" && Trim(s)[|Trim(s)| - 1] == s[|s| - 1]
  {
    assert TrailingSpace(s) == 0;
  }
}

=== FILE: citations.dfy ===
/**
 * Citation picking (`pickCitations`): every chunk that shares at least one
 * of the sixteen top keywords of question and answer becomes a candidate
 * citation scored by how many it shares; the candidates are stably sorted
 * by descending score and the first `max` kept.
 */
module Citations {
  import opened Base
  import opened Tokens
  import opened Ranking
  import opened Keywords
  import opened Corpus

  datatype Citation = Citation(sourceId: string, sourceName: string, snippet: string, score: nat)

  /** How many keywords of question and answer are matched. */
  const QueryKeywords: nat := 16

  /** The longest snippet a citation carries (`slice(0, 280)`). */
  const SnippetLength: nat := 280

  /** `new Set(topKeywords(`${question} ${answer}`, 16))`. */
  function QueryTerms(question: string, answer: string): (r: seq<string>)
    ensures |r| <= QueryKeywords
    ensures NoDup(r)
  {
    TopKeywords(question + " " + answer, QueryKeywords)
  }

  /** The positions of the keywords that are among `words`. */
  ghost function Present(keywords: seq<string>, words: seq<string>): set<nat>
  {
    set i: nat | i < |keywords| && keywords[i] in words
  }

  /**
   * `[...qk].filter((w) => words.has(w)).length`: how many of the keywords
   * are words of `text` (the keywords of a query are distinct).
   */
  function Overlap(keywords: seq<string>, text: string): (n: nat)
    ensures n == |Present(keywords, Tokenize(text))|
    ensures n <= |keywords|
    ensures n > 0 <==> exists i :: 0 <= i < |keywords| && keywords[i] in Tokenize(text)
  {
    if |keywords| == 0 then 0
    else
      var rest := Overlap(keywords[1..], text);
      PresentCons(keywords, Tokenize(text));
      assert (exists i :: 1 <= i < |keywords| && keywords[i] in Tokenize(text)) <==> rest > 0 by {
        if rest > 0 {
          var i :| 0 <= i < |keywords[1..]| && keywords[1..][i] in Tokenize(text);
          assert keywords[i + 1] in Tokenize(text);
        }
        forall i | 1 <= i < |keywords| && keywords[i] in Tokenize(text)
          ensures rest > 0
        {
          assert keywords[1..][i - 1] in Tokenize(text);
        }
      }
      (if keywords[0] in Tokenize(text) then 1 else 0) + rest
  }

  /** The keywords among `words`, split into the first one and the rest. */
  lemma PresentCons(keywords: seq<string>, words: seq<string>)
    requires |keywords| > 0
    ensures |Present(keywords, words)|
      == (if keywords[0] in words then 1 else 0) + |Present(keywords[1..], words)|
  {
    var tail := Present(keywords[1..], words);
    var shifted := Shift(tail);
    ShiftedCard(tail);
    assert Present(keywords, words) == (if keywords[0] in words then {0} else {}) + shifted by {
      forall i: nat | i in Present(keywords, words) && i > 0
        ensures i in shifted
      {
        assert keywords[1..][i - 1] == keywords[i];
        assert i - 1 in tail;
      }
      forall i | i in shifted
        ensures i in Present(keywords, words)
      {
        assert keywords[1..][i - 1] == keywords[i];
      }
    }
  }

  /** The citation a chunk of `s` yields. */
  function Cite(s: Source, c: Chunk, keywords: seq<string>): (r: Citation)
    ensures r.sourceId == s.id && r.sourceName == s.name
    ensures r.snippet <= c.text && |r.snippet| == Min(SnippetLength, |c.text|)
    ensures r.score <= |keywords|
    ensures r.score > 0 <==> exists i :: 0 <= i < |keywords| && keywords[i] in Tokenize(c.text)
  {
    Citation(s.id, s.name, Take(c.text, SnippetLength), Overlap(keywords, c.text))
  }

  /** The citations of the chunks `cs` of `s` that share a keyword, in chunk order. */
  function ChunkCandidates(s: Source, cs: seq<Chunk>, keywords: seq<string>): (r: seq<Citation>)
    ensures |r| <= |cs|
  {
    if |cs| == 0 then []
    else
      var x := Cite(s, cs[0], keywords);
      (if x.score > 0 then [x] else []) + ChunkCandidates(s, cs[1..], keywords)
  }

  /** The candidates of a run of chunks are collected chunk by chunk. */
  lemma {:induction false} ChunkCandidatesAppend(s: Source, a: seq<Chunk>, b: seq<Chunk>, keywords: seq<string>)
    ensures ChunkCandidates(s, a + b, keywords) == ChunkCandidates(s, a, keywords) + ChunkCandidates(s, b, keywords)
  {
    if |a| > 0 {
      assert (a + b)[0] == a[0] && (a + b)[1..] == a[1..] + b;
      ChunkCandidatesAppend(s, a[1..], b, keywords);
      ChunkCandidatesCons(s, a + b, keywords);
      ChunkCandidatesCons(s, a, keywords);
    } else {
      assert a + b == b;
    }
  }

  /** The candidates of a run of chunks: its first chunk's, then the rest's. */
  lemma ChunkCandidatesCons(s: Source, cs: seq<Chunk>, keywords: seq<string>)
    requires |cs| > 0
    ensures ChunkCandidates(s, cs, keywords) == ChunkCandidates(s, [cs[0]], keywords) + ChunkCandidates(s, cs[1..], keywords)
  {
    assert ChunkCandidates(s, [cs[0]][1..], keywords) == [];
  }

  /** One chunk yields its citation exactly when it shares a keyword. */
  lemma ChunkCandidatesSingle(s: Source, c: Chunk, keywords: seq<string>)
    ensures ChunkCandidates(s, [c], keywords) == if Overlap(keywords, c.text) > 0 then [Cite(s, c, keywords)] else []
  {
    assert ChunkCandidates(s, [c][1..], keywords) == [];
  }

  /** `x` is the citation of some chunk of `sources`. */
  ghost predicate CitesSomeChunk(x: Citation, sources: seq<Source>, keywords: seq<string>)
  {
    exists i, j :: 0 <= i < |sources| && 0 <= j < |sources[i].chunks| &&
      x == Cite(sources[i], sources[i].chunks[j], keywords)
  }

  /**
   * The candidate list `cites`, source by source and chunk by chunk, before
   * sorting.
   */
  function Candidates(sources: seq<Source>, keywords: seq<string>): (r: seq<Citation>)
    ensures |r| <= |AllChunks(sources)|
  {
    if |sources| == 0 then []
    else ChunkCandidates(sources[0], sources[0].chunks, keywords) + Candidates(sources[1..], keywords)
  }

  /** Candidates are collected source by source. */
  lemma {:induction false} CandidatesAppend(a: seq<Source>, b: seq<Source>, keywords: seq<string>)
    ensures Candidates(a + b, keywords) == Candidates(a, keywords) + Candidates(b, keywords)
  {
    if |a| > 0 {
      assert (a + b)[0] == a[0] && (a + b)[1..] == a[1..] + b;
      CandidatesAppend(a[1..], b, keywords);
      var head := ChunkCandidates(a[0], a[0].chunks, keywords);
      calc {
        Candidates(a + b, keywords);
        head + Candidates(a[1..] + b, keywords);
        head + (Candidates(a[1..], keywords) + Candidates(b, keywords));
        (head + Candidates(a[1..], keywords)) + Candidates(b, keywords);
      }
    } else {
      assert a + b == b;
    }
  }

  /** One source contributes the candidates of its chunks, in chunk order. */
  lemma CandidatesSingle(s: Source, keywords: seq<string>)
    ensures Candidates([s], keywords) == ChunkCandidates(s, s.chunks, keywords)
  {
    assert Candidates([s][1..], keywords) == [];
  }

  lemma {:induction false} ChunkCandidatesSound(s: Source, cs: seq<Chunk>, keywords: seq<string>, x: Citation)
    requires x in ChunkCandidates(s, cs, keywords)
    ensures x.score > 0 && exists j :: 0 <= j < |cs| && x == Cite(s, cs[j], keywords)
  {
    var head := Cite(s, cs[0], keywords);
    if x == head && head.score > 0 {
      assert x == Cite(s, cs[0], keywords);
    } else {
      ChunkCandidatesSound(s, cs[1..], keywords, x);
      var j :| 0 <= j < |cs[1..]| && x == Cite(s, cs[1..][j], keywords);
      assert x == Cite(s, cs[j + 1], keywords);
    }
  }

  lemma {:induction false} ChunkCandidatesComplete(s: Source, cs: seq<Chunk>, keywords: seq<string>, j: nat)
    requires j < |cs| && Overlap(keywords, cs[j].text) > 0
    ensures Cite(s, cs[j], keywords) in ChunkCandidates(s, cs, keywords)
  {
    if j > 0 {
      ChunkCandidatesComplete(s, cs[1..], keywords, j - 1);
      assert cs[1..][j - 1] == cs[j];
    }
  }

  /** Every candidate cites a chunk of the sources that shares a keyword. */
  lemma {:induction false} CandidatesSound(sources: seq<Source>, keywords: seq<string>, x: Citation)
    requires x in Candidates(sources, keywords)
    ensures x.score > 0 && CitesSomeChunk(x, sources, keywords)
  {
    var s := sources[0];
    if x in ChunkCandidates(s, s.chunks, keywords) {
      ChunkCandidatesSound(s, s.chunks, keywords, x);
      var j :| 0 <= j < |s.chunks| && x == Cite(s, s.chunks[j], keywords);
      assert 0 <= 0 < |sources| && x == Cite(sources[0], sources[0].chunks[j], keywords);
    } else {
      CandidatesSound(sources[1..], keywords, x);
      var i, j :| 0 <= i < |sources[1..]| && 0 <= j < |sources[1..][i].chunks| &&
        x == Cite(sources[1..][i], sources[1..][i].chunks[j], keywords);
      assert sources[1..][i] == sources[i + 1];
    }
  }

  /** Every chunk of the sources that shares a keyword is a candidate. */
  lemma {:induction false} CandidatesComplete(sources: seq<Source>, keywords: seq<string>, i: nat, j: nat)
    requires i < |sources| && j < |sources[i].chunks|
    requires Overlap(keywords, sources[i].chunks[j].text) > 0
    ensures Cite(sources[i], sources[i].chunks[j], keywords) in Candidates(sources, keywords)
  {
    if i == 0 {
      ChunkCandidatesComplete(sources[0], sources[0].chunks, keywords, j);
    } else {
      CandidatesComplete(sources[1..], keywords, i - 1, j);
      assert sources[1..][i - 1] == sources[i];
    }
  }

  /** Citations rank by their score. */
  function ByScore(): Citation -> real
  {
    (x: Citation) => x.score as real
  }

  /**
   * `x` cites a chunk of one of `sources`: its owner, the start of the
   * chunk's text, and how many of `keywords` the chunk contains.
   */
  ghost predicate CitesChunk(x: Citation, sources: seq<Source>, keywords: seq<string>)
  {
    exists i, j ::
      && 0 <= i < |sources| && 0 <= j < |sources[i].chunks|
      && x.sourceId == sources[i].id
      && x.sourceName == sources[i].name
      && x.snippet <= sources[i].chunks[j].text
      && |x.snippet| == Min(SnippetLength, |sources[i].chunks[j].text|)
      && x.score == Overlap(keywords, sources[i].chunks[j].text)
  }

  /**
   * The citations `pickCitations` keeps for the query keywords `keywords`:
   * the candidates stably sorted by descending score, the first `max` kept.
   */
  function Pick(sources: seq<Source>, keywords: seq<string>, max: nat): (r: seq<Citation>)
    ensures |r| <= max
    // the best `max` candidates, highest score first, ties in source and chunk order
    ensures IsTopK(r, Candidates(sources, keywords), ByScore(), max)
    ensures forall k :: 0 <= k < |r| ==> CitesChunk(r[k], sources, keywords)
    ensures forall k :: 0 <= k < |r| ==> 1 <= r[k].score <= |keywords|
  {
    var cands := Candidates(sources, keywords);
    TopKRanks(cands, ByScore(), max);
    var r := TopK(cands, ByScore(), max);
    PickedCiteChunks(r, cands, sources, keywords);
    r
  }

  /** `pickCitations(sources, question, answer, max)`. */
  function PickCitations(sources: seq<Source>, question: string, answer: string, max: nat): (r: seq<Citation>)
    ensures forall k :: 0 <= k < |r| ==> 1 <= r[k].score <= QueryKeywords
  {
    var kw := QueryTerms(question, answer);
    assert |kw| <= QueryKeywords;
    Pick(sources, QueryTerms(question, answer), max)
  }

  lemma PickedCiteChunks(r: seq<Citation>, cands: seq<Citation>, sources: seq<Source>, keywords: seq<string>)
    requires cands == Candidates(sources, keywords)
    requires multiset(r) <= multiset(cands)
    ensures forall k :: 0 <= k < |r| ==> CitesChunk(r[k], sources, keywords)
    ensures forall k :: 0 <= k < |r| ==> 1 <= r[k].score <= |keywords|
  {
    forall k | 0 <= k < |r|
      ensures CitesChunk(r[k], sources, keywords)
      ensures 1 <= r[k].score <= |keywords|
    {
      assert r[k] in multiset(cands);
      CandidatesSound(sources, keywords, r[k]);
      var i, j :| 0 <= i < |sources| && 0 <= j < |sources[i].chunks| &&
        r[k] == Cite(sources[i], sources[i].chunks[j], keywords);
    }
  }

  /**
   * A chunk that shares a keyword is left out only when `max` citations
   * were already kept.
   */
  lemma DroppedOnlyAtCap(sources: seq<Source>, keywords: seq<string>, max: nat, i: nat, j: nat)
    requires i < |sources| && j < |sources[i].chunks|
    requires Overlap(keywords, sources[i].chunks[j].text) > 0
    requires Cite(sources[i], sources[i].chunks[j], keywords) !in Pick(sources, keywords, max)
    ensures |Pick(sources, keywords, max)| == max
  {
    var cands := Candidates(sources, keywords);
    CandidatesComplete(sources, keywords, i, j);
    ProperSubMultiset(Pick(sources, keywords, max), cands, Cite(sources[i], sources[i].chunks[j], keywords));
  }

  lemma ProperSubMultiset<T>(a: seq<T>, b: seq<T>, x: T)
    requires multiset(a) <= multiset(b) && x in b && x !in a
    ensures |a| < |b|
  {
    var d := multiset(b) - multiset(a);
    assert multiset(b) == multiset(a) + d;
    assert x in d;
    assert |multiset(b)| == |multiset(a)| + |d|;
  }

  /** When no chunk contains a query keyword there is nothing to cite. */
  lemma NoOverlapNoCitations(sources: seq<Source>, keywords: seq<string>, max: nat)
    requires forall i, j :: 0 <= i < |sources| && 0 <= j < |sources[i].chunks| ==>
      Overlap(keywords, sources[i].chunks[j].text) == 0
    ensures Pick(sources, keywords, max) == []
  {
    var cands := Candidates(sources, keywords);
    if |cands| > 0 {
      CandidatesSound(sources, keywords, cands[0]);
      assert false;
    }
  }
}

=== FILE: corpus.dfy ===
/**
 * The notebook's sources and their chunks: `ingestSource` turns a request
 * into a source whose chunks are its paragraphs, and `findSources` selects
 * sources by id.
 */
module Corpus {
  import opened Base
  import opened Chars
  import opened Paragraphs
  import opened Tokens
  import opened Keywords

  /** One paragraph of a source: the unit of retrieval. */
  datatype Chunk = Chunk(id: string, index: nat, text: string, sourceId: string)

  datatype Source = Source(
    id: string,
    kind: string,
    name: string,
    url: Option<string>,
    meta: map<string, string>,
    text: string,
    chunks: seq<Chunk>,
    keywords: seq<string>,
    createdAt: string,
    updatedAt: string)

  /** The stored notebook (`data.sources`). */
  datatype Store = Store(sources: seq<Source>)

  /** The fields of an ingestion request; a field that was not sent is `None`. */
  datatype SourceInput = SourceInput(
    kind: string,
    name: Option<string>,
    content: Option<string>,
    url: Option<string>,
    meta: Option<map<string, string>>)

  /** How many keywords a source keeps (`topKeywords(text)` with its default `k`). */
  const SourceKeywords: nat := 8

  /** The placeholder text of a source whose content was not sent. */
  function PendingText(kind: string, url: Option<string>): string
  {
    "Pending fetch for " + kind + (if Truthy(url) then " → " + url.value else "")
  }

  /** The text a new source stores: the content, or the placeholder. */
  function SourceText(input: SourceInput): (r: string)
    ensures r != ""
    ensures Truthy(input.content) ==> r == input.content.value
    ensures !Truthy(input.content) ==> "Pending fetch for " <= r
  {
    OrElse(input.content, PendingText(input.kind, input.url))
  }

  /** The texts of some chunks, in order. */
  function ChunkTexts(cs: seq<Chunk>): (r: seq<string>)
    ensures |r| == |cs|
    ensures forall i :: 0 <= i < |cs| ==> r[i] == cs[i].text
  {
    if |cs| == 0 then [] else [cs[0].text] + ChunkTexts(cs[1..])
  }

  /** `paragraphs.map((p, i) => ({ id: uid('chk'), index: i, text: p, sourceId }))`. */
  function MakeChunks(paragraphs: seq<string>, sourceId: string, chunkId: nat -> string): (r: seq<Chunk>)
    ensures ChunkTexts(r) == paragraphs
    ensures forall i :: 0 <= i < |r| ==> r[i].index == i && r[i].sourceId == sourceId && r[i].id == chunkId(i)
  {
    var r := seq(|paragraphs|, i requires 0 <= i < |paragraphs| => Chunk(chunkId(i), i, paragraphs[i], sourceId));
    assert ChunkTexts(r) == paragraphs;
    r
  }

  /**
   * The source `ingestSource` builds from a request, given its id, the
   * chunk id generator and the timestamp.
   */
  function NewSource(input: SourceInput, id: string, chunkId: nat -> string, now: string): (s: Source)
    ensures s.id == id && s.kind == input.kind
    ensures s.name == (if Truthy(input.name) then input.name.value else id)
    ensures s.url == (if Truthy(input.url) then input.url else None)
    ensures s.meta == (if input.meta.Some? then input.meta.value else map[])
    ensures s.text == SourceText(input)
    // the chunks are the paragraphs of the text, numbered from 0
    ensures ChunkTexts(s.chunks) == SplitParagraphs(s.text)
    ensures forall i :: 0 <= i < |s.chunks| ==>
      && s.chunks[i].index == i
      && s.chunks[i].sourceId == id
      && s.chunks[i].id == chunkId(i)
      && s.chunks[i].text != ""
      && IsTrimmed(s.chunks[i].text)
    // the eight top keywords of the text
    ensures s.keywords == TopKeywords(s.text, SourceKeywords)
    ensures s.createdAt == now && s.updatedAt == now
  {
    var text := SourceText(input);
    Source(
      id, input.kind, OrElse(input.name, id),
      if Truthy(input.url) then input.url else None,
      if input.meta.Some? then input.meta.value else map[],
      text, MakeChunks(SplitParagraphs(text), id, chunkId), TopKeywords(text, SourceKeywords), now, now)
  }

  /**
   * `ingestSource(data, input)`: the store with the new source appended,
   * and the new source.
   */
  function IngestSource(store: Store, input: SourceInput, id: string, chunkId: nat -> string, now: string)
    : (r: (Store, Source))
    // exactly one source appended, the others untouched
    ensures r.0.sources == store.sources + [r.1]
    ensures r.1 == NewSource(input, id, chunkId, now)
  {
    var src := NewSource(input, id, chunkId, now);
    (Store(store.sources + [src]), src)
  }

  /** `findSources(data, ids)`: every source when `ids` is absent, else those listed. */
  function FindSources(store: Store, ids: Option<seq<string>>): (r: seq<Source>)
    ensures ids.None? ==> r == store.sources
    ensures forall s :: s in r <==> s in store.sources && (ids.None? || s.id in ids.value)
    ensures multiset(r) <= multiset(store.sources)
    // an empty id list is still a list: it selects nothing
    ensures ids == Some([]) ==> r == []
  {
    Select(store.sources, ids)
  }

  function Select(sources: seq<Source>, ids: Option<seq<string>>): (r: seq<Source>)
    ensures ids.None? ==> r == sources
    ensures forall s :: s in r <==> s in sources && (ids.None? || s.id in ids.value)
    ensures multiset(r) <= multiset(sources)
    // an empty id list is still a list: it selects nothing
    ensures ids == Some([]) ==> r == []
  {
    if |sources| == 0 then []
    else
      var rest := Select(sources[1..], ids);
      assert sources == [sources[0]] + sources[1..];
      if ids.None? || sources[0].id in ids.value then [sources[0]] + rest else rest
  }

  /** `sources.flatMap((s) => s.chunks)`. */
  function AllChunks(sources: seq<Source>): (r: seq<Chunk>)
    ensures forall c :: c in r <==> exists i :: 0 <= i < |sources| && c in sources[i].chunks
  {
    if |sources| == 0 then []
    else
      var rest := AllChunks(sources[1..]);
      assert forall c :: c in rest <==> exists i :: 1 <= i < |sources| && c in sources[i].chunks by {
        forall c | c in rest
          ensures exists i :: 1 <= i < |sources| && c in sources[i].chunks
        {
          var i :| 0 <= i < |sources[1..]| && c in sources[1..][i].chunks;
          assert c in sources[i + 1].chunks;
        }
        forall c, i | 1 <= i < |sources| && c in sources[i].chunks
          ensures c in rest
        {
          assert c in sources[1..][i - 1].chunks;
        }
      }
      sources[0].chunks + rest
  }

  /**
   * A freshly ingested source is found by its id, alone, provided no
   * earlier source carries the same id.
   */
  lemma IngestThenFind(store: Store, input: SourceInput, id: string, chunkId: nat -> string, now: string)
    requires forall i :: 0 <= i < |store.sources| ==> store.sources[i].id != id
    ensures FindSources(IngestSource(store, input, id, chunkId, now).0, Some([id]))
      == [IngestSource(store, input, id, chunkId, now).1]
  {
    var (st, src) := IngestSource(store, input, id, chunkId, now);
    AppendedIsFound(store.sources, src);
  }

  lemma AppendedIsFound(sources: seq<Source>, src: Source)
    requires forall i :: 0 <= i < |sources| ==> sources[i].id != src.id
    ensures Select(sources + [src], Some([src.id])) == [src]
  {
    NoneSelected(sources, src.id);
    SelectAppend(sources, [src], Some([src.id]));
  }

  /** Selections made without the new id do not see the new source. */
  lemma IngestKeepsSelection(store: Store, input: SourceInput, id: string, chunkId: nat -> string, now: string,
                             ids: seq<string>)
    requires id !in ids
    ensures FindSources(IngestSource(store, input, id, chunkId, now).0, Some(ids)) == FindSources(store, Some(ids))
  {
    var (st, src) := IngestSource(store, input, id, chunkId, now);
    AppendedIsHidden(store.sources, src, ids);
  }

  lemma AppendedIsHidden(sources: seq<Source>, src: Source, ids: seq<string>)
    requires src.id !in ids
    ensures Select(sources + [src], Some(ids)) == Select(sources, Some(ids))
  {
    SelectAppend(sources, [src], Some(ids));
    assert Select([src], Some(ids)) == [];
  }

  /** The corpus is flattened source by source, each source's chunks in order. */
  lemma {:induction false} AllChunksAppend(a: seq<Source>, b: seq<Source>)
    ensures AllChunks(a + b) == AllChunks(a) + AllChunks(b)
  {
    if |a| > 0 {
      assert (a + b)[1..] == a[1..] + b;
      AllChunksAppend(a[1..], b);
    } else {
      assert a + b == b;
    }
  }

  /** One source contributes exactly its own chunks. */
  lemma AllChunksSingle(s: Source)
    ensures AllChunks([s]) == s.chunks
  {
    assert AllChunks([s][1..]) == [];
  }

  lemma {:induction false} SelectAppend(a: seq<Source>, b: seq<Source>, ids: Option<seq<string>>)
    ensures Select(a + b, ids) == Select(a, ids) + Select(b, ids)
  {
    if |a| > 0 {
      assert (a + b)[1..] == a[1..] + b;
      SelectAppend(a[1..], b, ids);
    } else {
      assert a + b == b;
    }
  }

  lemma {:induction false} NoneSelected(sources: seq<Source>, id: string)
    requires forall i :: 0 <= i < |sources| ==> sources[i].id != id
    ensures Select(sources, Some([id])) == []
  {
    if |sources| > 0 {
      NoneSelected(sources[1..], id);
    }
  }

  /**
   * When no chunk keeps a `\r\n`, a source's chunks rejoined with blank
   * lines split back into the same chunk texts.
   */
  lemma ChunksRebuildText(src: Source)
    requires ChunkTexts(src.chunks) == SplitParagraphs(src.text)
    requires forall i :: 0 <= i < |src.chunks| ==> NoCrLf(src.chunks[i].text)
    ensures SplitParagraphs(Join(ChunkTexts(src.chunks), Blank)) == ChunkTexts(src.chunks)
  {
    SplitParagraphsIdempotent(src.text);
  }
}

=== FILE: generation.dfy ===
/**
 * Text generation: the fallback chain of `llmGenerate` (OpenAI, then
 * Gemini, then the deterministic mock), the offline artifacts of
 * `mockGenerate`, and the decision of `/api/generate` to use them.
 */
module Generation {
  import opened Base
  import opened Chars
  import opened Paragraphs
  import opened Sentences
  import opened Keywords
  import opened Corpus
  import opened Citations

  /** `[system, user].filter(Boolean).join('\n\n')`. */
  function Prompt(system: string, user: string): (r: string)
    ensures system == "" ==> r == user
    ensures user == "" ==> r == system
    ensures system != "" && user != "" ==> r == system + "\n\n" + user
  {
    var parts := NonEmpty([system, user]);
    assert [system, user][1..] == [user];
    assert system == "" ==> parts == NonEmpty([user]);
    assert user == "" ==> NonEmpty([user]) == [];
    Join(parts, "\n\n")
  }

  /** The first line of every mock reply. */
  const MockHeader: string := "Mock Response\n\n"

  /** How many sentences of the prompt the mock reply echoes. */
  const MockSentences: nat := 4

  /** `mockLLMGenerate({ system, user })` with the default text format. */
  function MockLlmText(system: string, user: string): (r: string)
    ensures MockHeader <= r
    // the rest is the opening (at most four) sentences of the prompt
    ensures SentencePieces(r[|MockHeader|..]) == Take(SentencePieces(Prompt(system, user)), MockSentences)
    ensures IsTrimmed(r[|MockHeader|..])
  {
    var summary := SplitSentences(Prompt(system, user), MockSentences);
    ClipSentences(Prompt(system, user), MockSentences);
    var r := MockHeader + summary;
    assert r[|MockHeader|..] == summary;
    r
  }

  /**
   * The replies of the two remote models; `None` when the key is missing,
   * the request failed, or the reply was empty.
   */
  datatype Backends = Backends(openai: Option<string>, gemini: Option<string>)

  /** `llmGenerate({ system, user })`. */
  function LlmGenerate(backends: Backends, system: string, user: string): (r: string)
    // the first model that answers wins
    ensures Truthy(backends.openai) ==> r == backends.openai.value
    ensures !Truthy(backends.openai) && Truthy(backends.gemini) ==> r == backends.gemini.value
    ensures !Truthy(backends.openai) && !Truthy(backends.gemini) ==> r == MockLlmText(system, user)
    // so there is always some text
    ensures r != ""
  {
    if Truthy(backends.openai) then backends.openai.value
    else if Truthy(backends.gemini) then backends.gemini.value
    else MockLlmText(system, user)
  }

  /** The shortest trimmed reply `/api/generate` accepts from a model. */
  const MinReply: nat := 30

  /** `!llmOut || llmOut.trim().length < 30`: the reply is replaced by a mock artifact. */
  predicate NeedsMock(out: string)
  {
    |Trim(out)| < MinReply
  }

  /**
   * With neither remote model answering, `/api/generate` falls back to the
   * mock artifact exactly when the echoed summary is shorter than 15
   * characters: the header contributes "Mock Response" plus, when a summary
   * follows, the two newlines.
   */
  lemma MockReplyFallback(system: string, user: string)
    ensures NeedsMock(MockLlmText(system, user)) <==>
      |SplitSentences(Prompt(system, user), MockSentences)| < MinReply - |MockHeader|
  {
    var s := SplitSentences(Prompt(system, user), MockSentences);
    assert MockLlmText(system, user) == MockHeader + s;
    if s == "" {
      TrimmedHeader();
    } else {
      TrimmedHeaderThen(s);
    }
  }

  /** The bare header trims to "Mock Response". */
  lemma TrimmedHeader()
    ensures Trim(MockHeader) == "Mock Response"
  {
    var r := MockHeader;
    var p := r[..|r| - 1];
    var q := p[..|p| - 1];
    assert q == "Mock Response";
    assert !IsSpace(q[|q| - 1]) && IsSpace(p[|p| - 1]) && IsSpace(r[|r| - 1]);
    assert TrailingSpace(r) == 2 by {
      assert TrailingSpace(q) == 0;
      assert TrailingSpace(p) == 1;
    }
    assert LeadingSpace(r) == 0 by {
      assert !IsSpace(r[0]);
    }
    assert r[0..|r| - 2] == q;
  }

  /** The header followed by a trimmed, non-empty summary is already trimmed. */
  lemma TrimmedHeaderThen(s: string)
    requires s != "" && IsTrimmed(s)
    ensures Trim(MockHeader + s) == MockHeader + s
  {
    var r := MockHeader + s;
    assert r[0] == 'M';
    assert r[|r| - 1] == s[|s| - 1];
    assert IsTrimmed(r);
  }

  /** `Math.max(4, Math.min(20, topK || 12))` for an integer `topK` (or none). */
  function EffectiveK(topK: Option<int>): (k: nat)
    ensures 4 <= k <= 20
    ensures topK.None? || topK == Some(0) ==> k == 12
    ensures topK.Some? && 4 <= topK.value <= 20 ==> k == topK.value
    ensures topK.Some? && topK.value != 0 && topK.value < 4 ==> k == 4
    ensures topK.Some? && topK.value > 20 ==> k == 20
  {
    var asked := if topK.None? || topK.value == 0 then 12 else topK.value;
    Max(4, Min(20, asked))
  }

  /** Clamping an already clamped `k` leaves it alone. */
  lemma EffectiveKIdempotent(topK: Option<int>)
    ensures EffectiveK(Some(EffectiveK(topK))) == EffectiveK(topK)
  {
  }

  // ----- mock artifacts -----

  /** `options` of `/api/generate`; an absent object has every field `None`. */
  datatype Options = Options(title: Option<string>, style: Option<string>, template: Option<string>)

  datatype Chapter = Chapter(number: nat, sourceName: string, summary: string)

  datatype Scene = Scene(number: nat, voiceover: string)

  /** One branch of the mind map: a source name and its opening paragraphs' first sentences. */
  datatype Branch = Branch(sourceName: string, leaves: seq<string>)

  datatype CardKind = Concept | KeyFact | HigherOrder

  datatype Card = Card(kind: CardKind, term: string)

  datatype QuizKind = SingleChoice | TrueFalse | FillIn | ShortAnswer

  datatype QuizAnswer = Letter(letter: string) | Verdict(holds: bool) | Words(text: string)

  datatype QuizItem = QuizItem(kind: QuizKind, answer: QuizAnswer)

  datatype Slide = Slide(title: string, points: seq<string>)

  /**
   * The structured part of each mock artifact. Fixed decoration (shot
   * directions, the report's fixed lists) and the text rendered from the
   * structure (script, outline, mermaid source, slide markdown) are not kept.
   */
  datatype Artifact =
    | AudioOverview(title: string, minutes: nat, chapters: seq<Chapter>, citations: seq<Citation>)
    | VideoOverview(title: string, scenes: seq<Scene>, citations: seq<Citation>)
    | MindMap(center: string, branches: seq<Branch>, citations: seq<Citation>)
    | Report(style: string, summary: string, background: string, insights: seq<string>,
             evidence: seq<string>, citations: seq<Citation>)
    | Flashcards(cards: seq<Card>, citations: seq<Citation>)
    | Quiz(items: seq<QuizItem>, citations: seq<Citation>)
    | Slides(template: string, slides: seq<Slide>, citations: seq<Citation>)
    | Unsupported(kind: string)

  /** The artifact kinds `mockGenerate` knows. */
  predicate IsKnownKind(kind: string)
  {
    || kind == "audio_overview" || kind == "video_overview" || kind == "mind_map" || kind == "report"
    || kind == "flashcards" || kind == "quiz" || kind == "slides"
  }

  /** `options?.title || (sources[0]?.name || '概览')`. */
  function ArtifactTitle(sources: seq<Source>, options: Options): (r: string)
    ensures r != ""
    ensures Truthy(options.title) ==> r == options.title.value
    // without a title: the first source's name, or `概览` when it has none
    ensures !Truthy(options.title) && |sources| > 0 && sources[0].name != "" ==> r == sources[0].name
    ensures !Truthy(options.title) && (|sources| == 0 || sources[0].name == "") ==> r == "概览"
  {
    OrElse(options.title, if |sources| > 0 && sources[0].name != "" then sources[0].name else "概览")
  }

  /** `sources.map((s) => s.text).join('\n\n')`: the text every artifact draws on. */
  function Basis(sources: seq<Source>): string
  {
    Join(Texts(sources), "\n\n")
  }

  function Texts(sources: seq<Source>): seq<string>
  {
    if |sources| == 0 then [] else [sources[0].text] + Texts(sources[1..])
  }

  /** `splitSentences(text, n)`: the opening (at most `n`) sentences of `text`. */
  function Summary(text: string, n: nat): (r: string)
    ensures SentencePieces(r) == Take(SentencePieces(text), n)
  {
    ClipSentences(text, n);
    SplitSentences(text, n)
  }

  /** The first sentence of each of the first three paragraphs of `text`. */
  function Leads(text: string): (r: seq<string>)
    ensures |r| == Min(3, |SplitParagraphs(text)|)
    ensures forall i :: 0 <= i < |r| ==> SentencePieces(r[i]) == Take(SentencePieces(SplitParagraphs(text)[i]), 1)
    ensures forall i :: 0 <= i < |r| ==> |SentencePieces(r[i])| <= 1
  {
    var ps := Take(SplitParagraphs(text), 3);
    seq(|ps|, i requires 0 <= i < |ps| => Summary(ps[i], 1))
  }

  /** The kind of the `i`-th flashcard: the three kinds in turn. */
  function CardKindAt(i: nat): CardKind
  {
    if i % 3 == 0 then Concept else if i % 3 == 1 then KeyFact else HigherOrder
  }

  function AudioArtifact(sources: seq<Source>, title: string, cites: seq<Citation>): (r: Artifact)
    ensures r.AudioOverview?
    // one chapter per source, numbered from 1, at least three minutes
    ensures |r.chapters| == |sources|
    ensures r.minutes == Max(3, 2 * |sources|)
    ensures forall i :: 0 <= i < |sources| ==>
      && r.chapters[i].number == i + 1
      && r.chapters[i].sourceName == sources[i].name
      && SentencePieces(r.chapters[i].summary) == Take(SentencePieces(sources[i].text), 3)
  {
    var chapters := seq(|sources|, i requires 0 <= i < |sources| =>
      Chapter(i + 1, sources[i].name, Summary(sources[i].text, 3)));
    AudioOverview("音频概览：" + title, Max(3, 2 * |chapters|), chapters, cites)
  }

  function VideoArtifact(sources: seq<Source>, title: string, cites: seq<Citation>): (r: Artifact)
    ensures r.VideoOverview?
    ensures |r.scenes| == |sources|
    ensures forall i :: 0 <= i < |sources| ==>
      && r.scenes[i].number == i + 1
      && SentencePieces(r.scenes[i].voiceover) == Take(SentencePieces(sources[i].text), 3)
  {
    var scenes := seq(|sources|, i requires 0 <= i < |sources| =>
      Scene(i + 1, Summary(sources[i].text, 3)));
    VideoOverview("视频概览：" + title, scenes, cites)
  }

  function MindMapArtifact(sources: seq<Source>, title: string, cites: seq<Citation>): (r: Artifact)
    ensures r.MindMap? && r.center == title
    // one branch per source, each with at most three one-sentence leaves
    ensures |r.branches| == |sources|
    ensures forall i :: 0 <= i < |sources| ==>
      && r.branches[i].sourceName == sources[i].name
      && |r.branches[i].leaves| == Min(3, |SplitParagraphs(sources[i].text)|)
      && forall j :: 0 <= j < |r.branches[i].leaves| ==> |SentencePieces(r.branches[i].leaves[j])| <= 1
  {
    MindMap(title, seq(|sources|, i requires 0 <= i < |sources| => Branch(sources[i].name, Leads(sources[i].text))), cites)
  }

  /** What each report insight starts with. */
  const InsightPrefix: string := "洞察："

  /** `[${c.sourceName}] ${c.snippet}`: a citation quoted in the report. */
  function EvidenceLine(c: Citation): (r: string)
    ensures "[" + c.sourceName + "] " <= r
    ensures r[|c.sourceName| + 3..] == c.snippet
  {
    var head := "[" + c.sourceName + "] ";
    var r := head + c.snippet;
    assert r[..|head|] == head;
    r
  }

  /** The report, given the six top keywords of the sources' text. */
  function ReportArtifact(sources: seq<Source>, options: Options, keywords: seq<string>, cites: seq<Citation>): (r: Artifact)
    ensures r.Report?
    ensures r.style == OrElse(options.style, "企业报告")
    ensures SentencePieces(r.summary) == Take(SentencePieces(Basis(sources)), 5)
    ensures SentencePieces(r.background) == Take(SentencePieces(Basis(sources)), 6)
    // one insight per top keyword, one evidence line per citation
    ensures |r.insights| == |keywords|
    ensures forall i :: 0 <= i < |keywords| ==> r.insights[i] == InsightPrefix + keywords[i]
    ensures |r.evidence| == |cites|
    ensures forall i :: 0 <= i < |cites| ==> r.evidence[i] == EvidenceLine(cites[i])
  {
    var basis := Basis(sources);
    var evidence := seq(|cites|, i requires 0 <= i < |cites| => EvidenceLine(cites[i]));
    Report(
      OrElse(options.style, "企业报告"),
      Summary(basis, 5),
      Summary(basis, 6),
      seq(|keywords|, i requires 0 <= i < |keywords| => InsightPrefix + keywords[i]),
      evidence,
      cites)
  }

  /** The flashcards, given the eight top keywords of the sources' text. */
  function FlashcardsArtifact(facts: seq<string>, cites: seq<Citation>): (r: Artifact)
    ensures r.Flashcards?
    // one card per top keyword (at most eight), kinds cycling concept, fact, question
    ensures |r.cards| == |facts|
    ensures forall i :: 0 <= i < |r.cards| ==> r.cards[i].term == facts[i] && r.cards[i].kind == CardKindAt(i)
  {
    Flashcards(seq(|facts|, i requires 0 <= i < |facts| => Card(CardKindAt(i), facts[i])), cites)
  }

  /** Flashcard kinds repeat every three cards, starting with a concept. */
  lemma CardKindsCycle(facts: seq<string>, cites: seq<Citation>)
    ensures var cards := FlashcardsArtifact(facts, cites).cards;
      && (|cards| > 0 ==> cards[0].kind == Concept)
      && (|cards| > 1 ==> cards[1].kind == KeyFact)
      && (|cards| > 2 ==> cards[2].kind == HigherOrder)
      && forall i :: 0 <= i && i + 3 < |cards| ==> cards[i + 3].kind == cards[i].kind
  {
    var cards := FlashcardsArtifact(facts, cites).cards;
    forall i | 0 <= i && i + 3 < |cards|
      ensures cards[i + 3].kind == cards[i].kind
    {
      assert (i + 3) % 3 == i % 3;
    }
  }

  /** The quiz, given the summary that answers its last question. */
  function QuizArtifact(summary: string, cites: seq<Citation>): (r: Artifact)
    ensures r.Quiz?
    // always the same four questions, one of each kind
    ensures |r.items| == 4
    ensures r.items[0].kind == SingleChoice && r.items[1].kind == TrueFalse
    ensures r.items[2].kind == FillIn && r.items[3].kind == ShortAnswer
    ensures r.items[1].answer == Verdict(false)
    // only the short answer depends on the sources
    ensures r.items[3].answer == Words(summary)
  {
    var choice := QuizItem(SingleChoice, Letter("A"));
    var verdict := QuizItem(TrueFalse, Verdict(false));
    var fillIn := QuizItem(FillIn, Words("见来源关键词"));
    var short := QuizItem(ShortAnswer, Words(summary));
    Quiz([choice, verdict, fillIn, short], cites)
  }

  /** One slide per source: its name over the leads of its text. */
  function SourceSlides(sources: seq<Source>): (r: seq<Slide>)
    ensures |r| == |sources|
    ensures forall i :: 0 <= i < |r| ==> r[i].title == sources[i].name && |r[i].points| <= 3
  {
    seq(|sources|, i requires 0 <= i < |sources| => Slide(sources[i].name, Leads(sources[i].text)))
  }

  /** The overview slide, the middle slides in order, then the closing slide. */
  function Deck(overview: Slide, middle: seq<Slide>, closing: Slide): (r: seq<Slide>)
    ensures |r| == |middle| + 2
    ensures r[0] == overview && r[|middle| + 1] == closing
    ensures forall i :: 0 <= i < |middle| ==> r[i + 1] == middle[i]
  {
    [overview] + middle + [closing]
  }

  /** The slide deck, given the five top keywords of the sources' text. */
  function SlidesArtifact(sources: seq<Source>, title: string, options: Options, keywords: seq<string>,
                          cites: seq<Citation>): (r: Artifact)
    ensures r.Slides?
    ensures r.template == OrElse(options.template, "商务")
    // an overview slide, one slide per source, a closing slide
    ensures |r.slides| == |sources| + 2
    ensures r.slides[0].points == keywords
    ensures forall i :: 0 <= i < |sources| ==>
      r.slides[i + 1].title == sources[i].name && |r.slides[i + 1].points| <= 3
    ensures |r.slides[|sources| + 1].points| == 3
  {
    var overview := Slide(title + " 概览", keywords);
    var perSource := SourceSlides(sources);
    var closing := Slide("结论与下一步", ["关键洞察", "行动建议", "开放问题"]);
    Slides(OrElse(options.template, "商务"), Deck(overview, perSource, closing), cites)
  }

  /** `mockGenerate(type, { sources, options })`. */
  function MockGenerate(kind: string, sources: seq<Source>, options: Options): (r: Artifact)
    // an unknown kind yields only a note
    ensures r.Unsupported? <==> !IsKnownKind(kind)
    // every known kind cites the sources against their title and text
    ensures !r.Unsupported? ==>
      r.citations == PickCitations(sources, ArtifactTitle(sources, options), Basis(sources), 6)
    // the countable shape of each kind
    ensures kind == "audio_overview" ==>
      r.AudioOverview? && |r.chapters| == |sources| && r.minutes == Max(3, 2 * |sources|)
    ensures kind == "video_overview" ==> r.VideoOverview? && |r.scenes| == |sources|
    ensures kind == "mind_map" ==> r.MindMap? && |r.branches| == |sources|
    ensures kind == "report" ==> r.Report? && |r.insights| <= 6 && |r.evidence| == |r.citations| <= 6
    ensures kind == "flashcards" ==>
      r.Flashcards? && |r.cards| <= 8 && (forall i :: 0 <= i < |r.cards| ==> r.cards[i].kind == CardKindAt(i))
    ensures kind == "quiz" ==> r.Quiz? && |r.items| == 4
    ensures kind == "slides" ==> r.Slides? && |r.slides| == |sources| + 2
  {
    var title := ArtifactTitle(sources, options);
    var cites := PickCitations(sources, title, Basis(sources), 6);
    if kind == "audio_overview" then AudioArtifact(sources, title, cites)
    else if kind == "video_overview" then VideoArtifact(sources, title, cites)
    else if kind == "mind_map" then MindMapArtifact(sources, title, cites)
    else if kind == "report" then ReportArtifact(sources, options, TopKeywords(Basis(sources), 6), cites)
    else if kind == "flashcards" then FlashcardsArtifact(TopKeywords(Basis(sources), 8), cites)
    else if kind == "quiz" then QuizArtifact(Summary(Basis(sources), 4), cites)
    else if kind == "slides" then SlidesArtifact(sources, title, options, TopKeywords(Basis(sources), 5), cites)
    else Unsupported(kind)
  }

  /** A mock artifact carries at most six citations, each of a chunk of the given sources. */
  lemma MockCitationsFromSources(kind: string, sources: seq<Source>, options: Options)
    requires IsKnownKind(kind)
    ensures var cs := MockGenerate(kind, sources, options).citations;
      && |cs| <= 6
      && forall k :: 0 <= k < |cs| ==>
        CitesChunk(cs[k], sources, QueryTerms(ArtifactTitle(sources, options), Basis(sources)))
  {
    var cs := MockGenerate(kind, sources, options).citations;
    var cands := Candidates(sources, QueryTerms(ArtifactTitle(sources, options), Basis(sources)));
    assert |cs| == Min(6, |cands|);
  }
}

=== FILE: handlers.dfy ===
/**
 * The two request handlers that tie the core together: `/api/ask`
 * (retrieve, answer, cite the sources that were retrieved) and
 * `/api/generate` (ask a model, fall back to the mock artifact when its
 * reply is too short). Parsing, prompt wording and transport are outside
 * the model: the prompt texts and the remote replies are parameters.
 */
module Handlers {
  import opened Base
  import opened Chars
  import opened Sentences
  import opened Corpus
  import opened Tfidf
  import opened Citations
  import opened Generation

  /**
   * A handler's reply: the body of a 200, the message of a 400, or the 500
   * the router sends when the handler throws (its message is the engine's).
   */
  datatype Reply<T> = Ok(value: T) | BadRequest(message: string) | ServerError

  /** What `/api/ask` answers with, before `formatAnswerWithVariants` renders it. */
  datatype Answer = Answer(base: string, chunks: seq<Chunk>, cited: seq<Source>, citations: seq<Citation>)

  /** How many citations either handler attaches. */
  const MaxCitations: nat := 6

  /** `chunks.some((c) => c.sourceId === s.id)`. */
  predicate OwnsSome(s: Source, chunks: seq<Chunk>)
  {
    exists i | 0 <= i < |chunks| :: chunks[i].sourceId == s.id
  }

  /** `sources.filter((s) => chunks.some((c) => c.sourceId === s.id))`. */
  function CitedSources(sources: seq<Source>, chunks: seq<Chunk>): (r: seq<Source>)
    ensures forall s :: s in r <==> s in sources && OwnsSome(s, chunks)
    ensures |r| <= |sources|
    // `filter` keeps the selection order
    ensures IsSubsequence(r, sources)
  {
    if |sources| == 0 then []
    else
      var rest := CitedSources(sources[1..], chunks);
      assert forall s :: s in sources <==> s == sources[0] || s in sources[1..] by {
        assert sources == [sources[0]] + sources[1..];
      }
      if OwnsSome(sources[0], chunks) then
        assert ([sources[0]] + rest)[1..] == rest;
        [sources[0]] + rest
      else
        assert |rest| > 0 ==> rest[0] in rest && rest[0] != sources[0];
        rest
  }

  /**
   * `POST /api/ask` with the request fields `question`, `sourceIds` and
   * `topK`; `system` and `user` are the prompt built from the retrieved
   * chunks, `backends` the replies of the remote models.
   */
  function Ask(store: Store, question: Option<string>, sourceIds: Option<seq<string>>, topK: Option<int>,
               num: Numerics, backends: Backends, system: string, user: string): (r: Reply<Answer>)
    ensures r.BadRequest? <==> !Truthy(question)
    ensures r.BadRequest? ==> r.message == "Missing question"
    ensures r.Ok? <==> Truthy(question)
    ensures r.Ok? ==> r.value.base != "" && |r.value.citations| <= MaxCitations
  {
    if !Truthy(question) then BadRequest("Missing question")
    else
      var sources := FindSources(store, sourceIds);
      var chunks := RetrieveTopChunks(question.value, sources, EffectiveK(topK), num);
      var base := LlmGenerate(backends, system, user);
      var cited := CitedSources(sources, chunks);
      Ok(Answer(base, chunks, cited, PickCitations(cited, question.value, base, MaxCitations)))
  }

  /**
   * An answer to `/api/ask` retrieves between 4 and 20 chunks (fewer only
   * when the selected sources have fewer), all from the selected sources,
   * and cites only selected sources that contributed a retrieved chunk.
   */
  lemma AskRetrieves(store: Store, question: Option<string>, sourceIds: Option<seq<string>>, topK: Option<int>,
                     num: Numerics, backends: Backends, system: string, user: string)
    requires Truthy(question)
    ensures var a := Ask(store, question, sourceIds, topK, num, backends, system, user).value;
      var sources := FindSources(store, sourceIds);
      && |a.chunks| == Min(EffectiveK(topK), |AllChunks(sources)|)
      && (forall i :: 0 <= i < |a.chunks| ==> a.chunks[i] in AllChunks(sources))
      && (forall s :: s in a.cited <==> s in sources && OwnsSome(s, a.chunks))
  {
  }

  /** Every citation of an answer names a source that contributed a retrieved chunk. */
  lemma AskCitesRetrievedSources(store: Store, question: Option<string>, sourceIds: Option<seq<string>>,
                                 topK: Option<int>, num: Numerics, backends: Backends, system: string, user: string)
    requires Truthy(question)
    ensures var a := Ask(store, question, sourceIds, topK, num, backends, system, user).value;
      forall k :: 0 <= k < |a.citations| ==>
        exists s :: s in FindSources(store, sourceIds) && s.id == a.citations[k].sourceId && OwnsSome(s, a.chunks)
  {
    var sources := FindSources(store, sourceIds);
    var chunks := RetrieveTopChunks(question.value, sources, EffectiveK(topK), num);
    var base := LlmGenerate(backends, system, user);
    var cited := CitedSources(sources, chunks);
    assert Ask(store, question, sourceIds, topK, num, backends, system, user).value
      == Answer(base, chunks, cited, PickCitations(cited, question.value, base, MaxCitations));
    PickNamesCited(cited, sources, chunks, QueryTerms(question.value, base), MaxCitations);
  }

  lemma PickNamesCited(cited: seq<Source>, sources: seq<Source>, chunks: seq<Chunk>, keywords: seq<string>, max: nat)
    requires forall s :: s in cited ==> s in sources && OwnsSome(s, chunks)
    ensures forall k :: 0 <= k < |Pick(cited, keywords, max)| ==>
      exists s :: s in sources && s.id == Pick(cited, keywords, max)[k].sourceId && OwnsSome(s, chunks)
  {
    var r := Pick(cited, keywords, max);
    forall k | 0 <= k < |r|
      ensures exists s :: s in sources && s.id == r[k].sourceId && OwnsSome(s, chunks)
    {
      assert CitesChunk(r[k], cited, keywords);
      var i, j :| 0 <= i < |cited| && 0 <= j < |cited[i].chunks| && r[k].sourceId == cited[i].id;
      assert cited[i] in cited;
    }
  }

  /** What `/api/generate` answers with: a mock artifact, or the model's text with citations. */
  datatype Generated = Mock(artifact: Artifact) | Text(kind: string, text: string, citations: seq<Citation>)

  /** The request's `options` field: not sent, sent as `null`, or an object. */
  datatype OptionsField = Unsent | Null | Sent(options: Options)

  /** An options object with no field set (`options = {}`). */
  const NoOptions: Options := Options(None, None, None)

  /** The options the handler reads: the object sent, or `{}` when none was. */
  function OptionsOf(field: OptionsField): Options
  {
    if field.Sent? then field.options else NoOptions
  }

  /**
   * `POST /api/generate` with the request fields `type`, `sourceIds` and
   * `options`; `system` and `user` are the generator prompt, `backends`
   * the replies of the remote models.
   */
  function Generate(store: Store, kind: Option<string>, sourceIds: Option<seq<string>>, options: OptionsField,
                    backends: Backends, system: string, user: string): (r: Reply<Generated>)
    ensures r.BadRequest? <==> !Truthy(kind)
    ensures r.BadRequest? ==> r.message == "Missing type"
    // `options: null` escapes the `= {}` default, and building the prompt reads `options.style`
    ensures r.ServerError? <==> Truthy(kind) && options.Null?
    // a reply shorter than 30 characters once trimmed is replaced by the mock artifact
    ensures r.Ok? ==> (r.value.Mock? <==> NeedsMock(LlmGenerate(backends, system, user)))
    // otherwise the reply is passed through with at most six citations
    ensures r.Ok? && r.value.Text? ==>
      && r.value.kind == kind.value
      && r.value.text == LlmGenerate(backends, system, user)
      && |Trim(r.value.text)| >= MinReply
      && |r.value.citations| <= MaxCitations
      && (forall k :: 0 <= k < |r.value.citations| ==> 1 <= r.value.citations[k].score <= QueryKeywords)
  {
    if !Truthy(kind) then BadRequest("Missing type")
    else if options.Null? then ServerError
    else
      var sources := FindSources(store, sourceIds);
      var opts := OptionsOf(options);
      var out := LlmGenerate(backends, system, user);
      if NeedsMock(out) then Ok(Mock(MockGenerate(kind.value, sources, opts)))
      else Ok(Text(kind.value, out, PickCitations(sources, OrElse(opts.title, kind.value), out, MaxCitations)))
  }

  /** Options that were not sent behave as an empty options object. */
  lemma UnsentOptions(store: Store, kind: Option<string>, sourceIds: Option<seq<string>>,
                      backends: Backends, system: string, user: string)
    ensures Generate(store, kind, sourceIds, Unsent, backends, system, user)
      == Generate(store, kind, sourceIds, Sent(NoOptions), backends, system, user)
  {
    assert OptionsOf(Unsent) == OptionsOf(Sent(NoOptions));
  }

  /** A reply that needs the fallback is replaced by the mock artifact of the selected sources. */
  lemma GenerateMock(store: Store, kind: Option<string>, sourceIds: Option<seq<string>>, options: Options,
                     backends: Backends, system: string, user: string)
    requires Truthy(kind) && NeedsMock(LlmGenerate(backends, system, user))
    ensures Generate(store, kind, sourceIds, Sent(options), backends, system, user)
      == Ok(Mock(MockGenerate(kind.value, FindSources(store, sourceIds), options)))
  {
  }

  /**
   * With neither remote model answering, `/api/generate` returns the mock
   * artifact exactly when the prompt's opening sentences come to fewer
   * than 15 characters; otherwise it returns the mock reply's text.
   */
  lemma OfflineGenerate(store: Store, kind: Option<string>, sourceIds: Option<seq<string>>, options: Options,
                        system: string, user: string)
    requires Truthy(kind)
    ensures var r := Generate(store, kind, sourceIds, Sent(options), Backends(None, None), system, user);
      r.Ok? && (r.value.Mock? <==>
        |SplitSentences(Prompt(system, user), MockSentences)| < MinReply - |MockHeader|)
  {
    MockReplyFallback(system, user);
  }

  /** A remote reply of 30 or more characters is returned as the generated text. */
  lemma RemoteReplyKept(store: Store, kind: Option<string>, sourceIds: Option<seq<string>>, options: Options,
                        reply: string, gemini: Option<string>, system: string, user: string)
    requires Truthy(kind) && |Trim(reply)| >= MinReply
    ensures var r := Generate(store, kind, sourceIds, Sent(options), Backends(Some(reply), gemini), system, user);
      r.Ok? && r.value.Text? && r.value.text == reply
  {
    assert reply != "";
  }
}

=== FILE: keywords.dfy ===
/**
 * Keyword ranking (`topKeywords`): tokens minus stop words are counted in a
 * plain object, whose entries are stably sorted by descending count; the
 * first `k` keys are the keywords.
 */
module Keywords {
  import opened Base
  import opened Tokens
  import opened Ranking
  import opened ObjectKeys

  /**
   * `STOP.has(w)`: `w` is one of the 106 English stop words of the set
   * `STOP`.
   */
  predicate IsStopWord(w: string)
  {
    w == "the" || w == "a" || w == "an" || w == "and" || w == "or" || w == "of" || w == "to" ||
      w == "in" || w == "is" || w == "are" || w == "for" || w == "with" || w == "on" || w == "by" ||
      w == "from" || w == "at" || w == "as" || w == "this" || w == "that" || w == "these" ||
      w == "those" || w == "it" || w == "be" || w == "was" || w == "were" || w == "been" ||
      w == "being" || w == "i" || w == "you" || w == "he" || w == "she" || w == "they" ||
      w == "we" || w == "our" || w == "your" || w == "their" || w == "its" || w == "not" ||
      w == "no" || w == "yes" || w == "do" || w == "does" || w == "did" || w == "done" ||
      w == "have" || w == "has" || w == "had" || w == "can" || w == "could" || w == "may" ||
      w == "might" || w == "must" || w == "shall" || w == "should" || w == "will" || w == "would" ||
      w == "if" || w == "then" || w == "else" || w == "than" || w == "when" || w == "where" ||
      w == "who" || w == "what" || w == "why" || w == "how" || w == "which" || w == "about" ||
      w == "into" || w == "over" || w == "under" || w == "more" || w == "less" || w == "most" ||
      w == "least" || w == "many" || w == "few" || w == "very" || w == "just" || w == "also" ||
      w == "even" || w == "only" || w == "other" || w == "another" || w == "some" || w == "any" ||
      w == "each" || w == "every" || w == "because" || w == "so" || w == "therefore" ||
      w == "thus" || w == "hence" || w == "include" || w == "including" || w == "such" ||
      w == "per" || w == "via" || w == "across" || w == "among" || w == "between" ||
      w == "before" || w == "after" || w == "during" || w == "within" || w == "without"
  }

  /** The tokens not in `stop`, in order (`if (stop.has(w)) continue`). */
  function ContentWords(ts: seq<string>, stop: string -> bool): (r: seq<string>)
    ensures forall w :: w in r <==> w in ts && !stop(w)
    ensures forall w :: !stop(w) ==> multiset(r)[w] == multiset(ts)[w]
  {
    if |ts| == 0 then []
    else
      assert ts == [ts[0]] + ts[1..];
      (if stop(ts[0]) then [] else [ts[0]]) + ContentWords(ts[1..], stop)
  }

  /** How often `w` occurs among the tokens of `text`. */
  function Occurrences(text: string, w: string): nat
  {
    multiset(Tokenize(text))[w]
  }

  /** The object's values: the count of each word (`freq[w]`). */
  function Frequency(words: seq<string>): string -> real
  {
    w => multiset(words)[w] as real
  }

  /** The object's keys, in the order `Object.entries` lists them. */
  function FrequencyKeys(words: seq<string>): seq<string>
  {
    EntriesOrder(Dedup(words))
  }

  /**
   * The first `k` keys of the count object built from the tokens `ts`
   * that are not in `stop`, ranked by descending count.
   */
  function Ranked(ts: seq<string>, stop: string -> bool, k: nat): (r: seq<string>)
    ensures |r| == Min(k, |Dedup(ContentWords(ts, stop))|)
    ensures NoDup(r)
  {
    var words := ContentWords(ts, stop);
    TopKNoDup(FrequencyKeys(words), Frequency(words), k);
    TopK(FrequencyKeys(words), Frequency(words), k)
  }

  /** `topKeywords(text, k)`: at most `k` distinct content words of `text`. */
  function TopKeywords(text: string, k: nat): (r: seq<string>)
    ensures |r| <= k
    ensures NoDup(r)
  {
    Ranked(Tokenize(text), IsStopWord, k)
  }

  /** Every keyword is a token of the text and not a stop word. */
  lemma KeywordsAreContent(text: string, k: nat)
    ensures forall i :: 0 <= i < |TopKeywords(text, k)| ==>
      TopKeywords(text, k)[i] in Tokenize(text) && !IsStopWord(TopKeywords(text, k)[i])
  {
    KeywordsFromText(Tokenize(text), IsStopWord, k);
  }

  /** `topKeywords` keeps `k` words, or every distinct content word if there are fewer. */
  lemma KeywordCount(text: string, k: nat)
    ensures |TopKeywords(text, k)| == Min(k, |Dedup(ContentWords(Tokenize(text), IsStopWord))|)
  {
  }

  /** The keywords come in non-increasing frequency. */
  lemma KeywordsOrdered(text: string, k: nat)
    ensures forall i, j :: 0 <= i < j < |TopKeywords(text, k)| ==>
      Occurrences(text, TopKeywords(text, k)[i]) >= Occurrences(text, TopKeywords(text, k)[j])
  {
    KeywordsByFrequency(Tokenize(text), IsStopWord, k);
  }

  /** No content word left out is more frequent than a keyword. */
  lemma KeywordsTop(text: string, k: nat)
    ensures forall w, i ::
      (0 <= i < |TopKeywords(text, k)| && w in Tokenize(text) && !IsStopWord(w) && w !in TopKeywords(text, k)) ==>
      Occurrences(text, TopKeywords(text, k)[i]) >= Occurrences(text, w)
  {
    KeywordsAreTop(Tokenize(text), IsStopWord, k);
  }

  /** Keywords of equal frequency keep the order `Object.entries` lists them in. */
  lemma KeywordTies(text: string, k: nat)
    ensures var words := ContentWords(Tokenize(text), IsStopWord);
      forall v :: Tier(TopKeywords(text, k), Frequency(words), v) <= Tier(FrequencyKeys(words), Frequency(words), v)
  {
    var words := ContentWords(Tokenize(text), IsStopWord);
    TopKRanks(FrequencyKeys(words), Frequency(words), k);
  }

  /** The count object's keys are exactly the content words. */
  lemma KeysAreContent(ts: seq<string>, stop: string -> bool, w: string)
    ensures w in FrequencyKeys(ContentWords(ts, stop)) <==> w in ts && !stop(w)
  {
    var words := ContentWords(ts, stop);
    if w in FrequencyKeys(words) {
      KeyIsWord(words, w);
    }
    if w in ts && !stop(w) {
      WordIsKey(words, w);
    }
  }

  lemma KeyIsWord(words: seq<string>, w: string)
    requires w in FrequencyKeys(words)
    ensures w in words
  {
    assert w in multiset(FrequencyKeys(words));
    assert w in multiset(Dedup(words));
    var m :| 0 <= m < |Dedup(words)| && Dedup(words)[m] == w;
  }

  lemma WordIsKey(words: seq<string>, w: string)
    requires w in words
    ensures w in FrequencyKeys(words)
  {
    var m :| 0 <= m < |words| && words[m] == w;
    assert w in Dedup(words);
    assert w in multiset(Dedup(words));
    assert w in multiset(FrequencyKeys(words));
  }

  lemma KeywordsFromText(ts: seq<string>, stop: string -> bool, k: nat)
    ensures forall i :: 0 <= i < |Ranked(ts, stop, k)| ==>
      Ranked(ts, stop, k)[i] in ts && !stop(Ranked(ts, stop, k)[i])
  {
    var words := ContentWords(ts, stop);
    var r := Ranked(ts, stop, k);
    forall i | 0 <= i < |r|
      ensures r[i] in ts && !stop(r[i])
    {
      TopKFrom(FrequencyKeys(words), Frequency(words), k, i);
      KeysAreContent(ts, stop, r[i]);
    }
  }

  lemma KeywordsByFrequency(ts: seq<string>, stop: string -> bool, k: nat)
    ensures forall i, j :: 0 <= i < j < |Ranked(ts, stop, k)| ==>
      multiset(ts)[Ranked(ts, stop, k)[i]] >= multiset(ts)[Ranked(ts, stop, k)[j]]
  {
    var words := ContentWords(ts, stop);
    var keys := FrequencyKeys(words);
    var r := Ranked(ts, stop, k);
    assert r == TopK(keys, Frequency(words), k);
    forall i, j | 0 <= i < j < |r|
      ensures multiset(ts)[r[i]] >= multiset(ts)[r[j]]
    {
      TopKOrdered(keys, Frequency(words), k, i, j);
      TopKFrom(keys, Frequency(words), k, i);
      TopKFrom(keys, Frequency(words), k, j);
      KeysAreContent(ts, stop, r[i]);
      KeysAreContent(ts, stop, r[j]);
      assert multiset(words)[r[i]] == multiset(ts)[r[i]];
      assert multiset(words)[r[j]] == multiset(ts)[r[j]];
    }
  }

  lemma KeywordsAreTop(ts: seq<string>, stop: string -> bool, k: nat)
    ensures forall w, i ::
      (0 <= i < |Ranked(ts, stop, k)| && w in ts && !stop(w) && w !in Ranked(ts, stop, k)) ==>
      multiset(ts)[Ranked(ts, stop, k)[i]] >= multiset(ts)[w]
  {
    var words := ContentWords(ts, stop);
    var r := Ranked(ts, stop, k);
    KeywordsFromText(ts, stop, k);
    forall w, i | 0 <= i < |r| && w in ts && !stop(w) && w !in r
      ensures multiset(ts)[r[i]] >= multiset(ts)[w]
    {
      KeysAreContent(ts, stop, w);
      TopKAbove(FrequencyKeys(words), Frequency(words), k, w, i);
    }
  }
}

=== FILE: object_keys.dfy ===
/**
 * The order in which `Object.entries` lists the keys of a plain object:
 * keys that are array indices (canonical decimal numerals below 2^32 - 1)
 * come first in ascending numeric order, then every other key in the
 * order it was first inserted.
 */
module ObjectKeys {
  import opened Base
  import opened Ranking

  predicate IsDigit(c: char) { '0' <= c <= '9' }

  function DigitValue(c: char): nat { if IsDigit(c) then c as int - '0' as int else 0 }

  /** The value of a decimal numeral. */
  function DecimalValue(s: string): nat
  {
    if |s| == 0 then 0 else DecimalValue(s[..|s| - 1]) * 10 + DigitValue(s[|s| - 1])
  }

  /** `2^32 - 1`: array indices lie strictly below it. */
  const IndexLimit: nat := 4294967295

  /** A canonical numeral (no leading zero) whose value is an array index. */
  predicate IsArrayIndex(k: string) {
    && |k| > 0
    && (forall i :: 0 <= i < |k| ==> IsDigit(k[i]))
    && (|k| == 1 || k[0] != '0')
    && DecimalValue(k) < IndexLimit
  }

  /** The array-index keys, in insertion order. */
  function IndexKeys(keys: seq<string>): (r: seq<string>)
    ensures forall i :: 0 <= i < |r| ==> IsArrayIndex(r[i])
    ensures forall k :: k in r <==> k in keys && IsArrayIndex(k)
    ensures NoDup(keys) ==> NoDup(r)
    ensures (forall i :: 0 <= i < |keys| ==> !IsArrayIndex(keys[i])) ==> r == []
  {
    if |keys| == 0 then []
    else if IsArrayIndex(keys[0]) then
      var rest := IndexKeys(keys[1..]);
      assert NoDup(keys) ==> NoDup([keys[0]] + rest) by {
        if NoDup(keys) { ConsNoDup(keys[0], rest); }
      }
      [keys[0]] + rest
    else IndexKeys(keys[1..])
  }

  /** The other keys, in insertion order. */
  function NamedKeys(keys: seq<string>): (r: seq<string>)
    ensures forall i :: 0 <= i < |r| ==> !IsArrayIndex(r[i])
    ensures forall k :: k in r <==> k in keys && !IsArrayIndex(k)
    ensures NoDup(keys) ==> NoDup(r)
    ensures (forall i :: 0 <= i < |keys| ==> !IsArrayIndex(keys[i])) ==> r == keys
  {
    if |keys| == 0 then []
    else if !IsArrayIndex(keys[0]) then
      var rest := NamedKeys(keys[1..]);
      assert NoDup(keys) ==> NoDup([keys[0]] + rest) by {
        if NoDup(keys) { ConsNoDup(keys[0], rest); }
      }
      [keys[0]] + rest
    else NamedKeys(keys[1..])
  }

  lemma {:induction false} SplitKeysPermutes(keys: seq<string>)
    ensures multiset(IndexKeys(keys)) + multiset(NamedKeys(keys)) == multiset(keys)
  {
    if |keys| > 0 {
      SplitKeysPermutes(keys[1..]);
      assert keys == [keys[0]] + keys[1..];
      if IsArrayIndex(keys[0]) {
        assert IndexKeys(keys) == [keys[0]] + IndexKeys(keys[1..]);
        assert NamedKeys(keys) == NamedKeys(keys[1..]);
      } else {
        assert IndexKeys(keys) == IndexKeys(keys[1..]);
        assert NamedKeys(keys) == [keys[0]] + NamedKeys(keys[1..]);
      }
    }
  }

  /** Both halves keep the relative insertion order of their keys. */
  lemma {:induction false} SplitKeysInOrder(keys: seq<string>)
    ensures IsSubsequence(IndexKeys(keys), keys)
    ensures IsSubsequence(NamedKeys(keys), keys)
  {
    if |keys| > 0 {
      SplitKeysInOrder(keys[1..]);
    }
  }

  /** Sorting key that puts smaller indices first. */
  function AscendingIndex(): string -> real
  {
    k => -(DecimalValue(k) as real)
  }

  /**
   * `Object.entries(o).map(([k]) => k)` for an object whose keys were
   * inserted in the order `keys`.
   */
  function EntriesOrder(keys: seq<string>): (r: seq<string>)
    ensures multiset(r) == multiset(keys)
    ensures NoDup(keys) ==> NoDup(r)
    ensures |IndexKeys(keys)| <= |r|
    ensures forall i :: 0 <= i < |IndexKeys(keys)| ==> IsArrayIndex(r[i])
    ensures forall i, j :: 0 <= i < j < |IndexKeys(keys)| ==> DecimalValue(r[i]) <= DecimalValue(r[j])
    ensures r[|IndexKeys(keys)|..] == NamedKeys(keys)
  {
    var idx := SortDesc(IndexKeys(keys), AscendingIndex());
    SplitKeysPermutes(keys);
    SortDescSorted(IndexKeys(keys), AscendingIndex());
    assert forall i :: 0 <= i < |idx| ==> IsArrayIndex(idx[i]) by {
      forall i | 0 <= i < |idx| ensures IsArrayIndex(idx[i]) {
        assert idx[i] in multiset(IndexKeys(keys));
      }
    }
    assert forall i, j :: 0 <= i < j < |idx| ==> DecimalValue(idx[i]) <= DecimalValue(idx[j]) by {
      forall i, j | 0 <= i < j < |idx| ensures DecimalValue(idx[i]) <= DecimalValue(idx[j]) {
        assert AscendingIndex()(idx[i]) >= AscendingIndex()(idx[j]);
      }
    }
    assert NoDup(keys) ==> NoDup(idx + NamedKeys(keys)) by {
      if NoDup(keys) {
        SortDescNoDup(IndexKeys(keys), AscendingIndex());
        AppendNoDup(idx, NamedKeys(keys));
      }
    }
    idx + NamedKeys(keys)
  }

  /** Without numeric keys, entries come back in insertion order. */
  lemma EntriesOrderPlain(keys: seq<string>)
    requires forall i :: 0 <= i < |keys| ==> !IsArrayIndex(keys[i])
    ensures EntriesOrder(keys) == keys
  {
  }
}

=== FILE: paragraphs.dfy ===
/**
 * Paragraph chunking (`splitParagraphs`): CRLF becomes LF, the text is cut
 * at every run of two or more line feeds, each piece is trimmed and empty
 * pieces are dropped.
 */
module Paragraphs {
  import opened Base
  import opened Chars

  /** `a` is never directly followed by `b` in `s`. */
  predicate NoPair(s: string, a: char, b: char) {
    forall k :: 0 <= k < |s| - 1 ==> !(s[k] == a && s[k + 1] == b)
  }

  /** No two consecutive line feeds, i.e. no blank line inside. */
  predicate NoBlankLine(s: string) { NoPair(s, '\n', '\n') }

  /** No carriage return directly before a line feed. */
  predicate NoCrLf(s: string) { NoPair(s, '\r', '\n') }

  /** Both pair-freedom facts survive taking a slice. */
  lemma NoPairSlice(s: string, a: char, b: char, i: nat, j: nat)
    requires i <= j <= |s|
    requires NoPair(s, a, b)
    ensures NoPair(s[i..j], a, b)
  {
    var t := s[i..j];
    forall k | 0 <= k < |t| - 1
      ensures !(t[k] == a && t[k + 1] == b)
    {
      assert t[k] == s[i + k] && t[k + 1] == s[i + k + 1];
    }
  }

  /**
   * `s` with every carriage return that directly precedes a line feed
   * deleted, character by character.
   */
  function DropPairedCr(s: string): string
  {
    if |s| == 0 then ""
    else (if s[0] == '\r' && |s| > 1 && s[1] == '\n' then "" else [s[0]]) + DropPairedCr(s[1..])
  }

  /** `replace(/\r\n/g, '\n')`: leftmost, non-overlapping replacement. */
  function NormalizeNewlines(s: string): (r: string)
    ensures |r| <= |s|
    // two `\r\n` pairs never overlap, so replacing them is deleting their `\r`
    ensures r == DropPairedCr(s)
    ensures NoCrLf(s) ==> r == s
  {
    if |s| < 2 then s
    else if s[0] == '\r' && s[1] == '\n' then
      assert DropPairedCr(s) == DropPairedCr(s[1..]) && s[1..][1..] == s[2..];
      "\n" + NormalizeNewlines(s[2..])
    else
      assert NoCrLf(s) ==> NoCrLf(s[1..]) by {
        if NoCrLf(s) { NoPairSlice(s, '\r', '\n', 1, |s|); }
      }
      [s[0]] + NormalizeNewlines(s[1..])
  }

  /** A blank-line break starts at `k`. */
  predicate BreakAt(s: string, k: nat) {
    k + 1 < |s| && s[k] == '\n' && s[k + 1] == '\n'
  }

  /** The first break at or after `i`, or `|s|` when there is none. */
  function NextBreak(s: string, i: nat): (j: nat)
    requires i <= |s|
    ensures i <= j <= |s|
    ensures j < |s| ==> BreakAt(s, j)
    ensures forall k :: i <= k < j ==> !BreakAt(s, k)
    decreases |s| - i
  {
    if i + 1 >= |s| then |s|
    else if BreakAt(s, i) then i
    else NextBreak(s, i + 1)
  }

  /** The end of the run of line feeds starting at `i`. */
  function NewlineRunEnd(s: string, i: nat): (j: nat)
    requires i <= |s|
    ensures i <= j <= |s|
    ensures forall k :: i <= k < j ==> s[k] == '\n'
    ensures j < |s| ==> s[j] != '\n'
    decreases |s| - i
  {
    if i == |s| || s[i] != '\n' then i else NewlineRunEnd(s, i + 1)
  }

  /** Without a break there is no blank line. */
  lemma NoBreakNoBlank(s: string)
    requires forall k :: 0 <= k < |s| ==> !BreakAt(s, k)
    ensures NoBlankLine(s)
  {
    forall k | 0 <= k < |s| - 1
      ensures !(s[k] == '\n' && s[k + 1] == '\n')
    {
      assert !BreakAt(s, k);
    }
  }

  /** The text before the first break has no blank line. */
  lemma BlankFreeBeforeBreak(s: string, b: nat)
    requires b <= |s|
    requires forall k :: 0 <= k < b ==> !BreakAt(s, k)
    ensures NoBlankLine(s[..b])
  {
    var t := s[..b];
    forall k | 0 <= k < |t| - 1
      ensures !(t[k] == '\n' && t[k + 1] == '\n')
    {
      assert !BreakAt(s, k);
    }
  }

  /** Without a blank line the search for a break runs to the end. */
  lemma BlankFreeHasNoBreak(s: string, i: nat)
    requires i <= |s|
    requires NoBlankLine(s)
    ensures NextBreak(s, i) == |s|
    decreases |s| - i
  {
    if i + 1 < |s| {
      assert !(s[i] == '\n' && s[i + 1] == '\n');
      BlankFreeHasNoBreak(s, i + 1);
    }
  }

  /**
   * `split(/\n{2,}/)`: the leftmost match is the first break, and greedy
   * matching swallows the whole run of line feeds that follows it.
   */
  function SplitBlank(s: string): (r: seq<string>)
    ensures |r| >= 1
    ensures forall i :: 0 <= i < |r| ==> NoBlankLine(r[i])
    ensures NoCrLf(s) ==> forall i :: 0 <= i < |r| ==> NoCrLf(r[i])
    decreases |s|
  {
    var b := NextBreak(s, 0);
    if b == |s| then
      NoBreakNoBlank(s);
      [s]
    else
      var e := NewlineRunEnd(s, b);
      BlankFreeBeforeBreak(s, b);
      if NoCrLf(s) then
        NoPairSlice(s, '\r', '\n', 0, b);
        NoPairSlice(s, '\r', '\n', e, |s|);
        assert s[0..b] == s[..b] && s[e..|s|] == s[e..];
        [s[..b]] + SplitBlank(s[e..])
      else
        [s[..b]] + SplitBlank(s[e..])
  }

  /** `s` without its leading line feeds. */
  function SkipNewlines(s: string): (r: string)
    ensures |r| <= |s|
    ensures |s| > 0 && s[0] == '\n' ==> |r| < |s|
    ensures |r| > 0 ==> r[0] != '\n'
  {
    if |s| > 0 && s[0] == '\n' then SkipNewlines(s[1..]) else s
  }

  /**
   * `s` with every run of two or more line feeds shortened to exactly two,
   * read character by character: what `split(/\n{2,}/)` followed by
   * `join('\n\n')` gives.
   */
  function CollapseBreaks(s: string): string
    decreases |s|
  {
    if |s| == 0 then ""
    else if BreakAt(s, 0) then Blank + CollapseBreaks(SkipNewlines(s))
    else [s[0]] + CollapseBreaks(s[1..])
  }

  lemma {:induction false} SkipRun(s: string, e: nat)
    requires e <= |s|
    requires forall k :: 0 <= k < e ==> s[k] == '\n'
    requires e < |s| ==> s[e] != '\n'
    ensures SkipNewlines(s) == s[e..]
  {
    if e > 0 {
      SkipRun(s[1..], e - 1);
      assert s[1..][e - 1..] == s[e..];
    }
  }

  lemma {:induction false} CollapseNoBreak(s: string)
    requires forall k :: 0 <= k < |s| ==> !BreakAt(s, k)
    ensures CollapseBreaks(s) == s
  {
    if |s| > 0 {
      assert !BreakAt(s, 0);
      forall k | 0 <= k < |s[1..]|
        ensures !BreakAt(s[1..], k)
      {
        assert !BreakAt(s, k + 1);
      }
      CollapseNoBreak(s[1..]);
    }
  }

  /** Up to the first break the text is copied, and the break becomes `\n\n`. */
  lemma {:induction false} CollapseAtBreak(s: string, b: nat, e: nat)
    requires b + 2 <= e <= |s|
    requires forall k :: 0 <= k < b ==> !BreakAt(s, k)
    requires forall k :: b <= k < e ==> s[k] == '\n'
    requires e < |s| ==> s[e] != '\n'
    ensures CollapseBreaks(s) == s[..b] + Blank + CollapseBreaks(s[e..])
  {
    if b == 0 {
      assert BreakAt(s, 0);
      SkipRun(s, e);
    } else {
      assert !BreakAt(s, 0);
      var t := s[1..];
      forall k | 0 <= k < b - 1
        ensures !BreakAt(t, k)
      {
        assert !BreakAt(s, k + 1);
      }
      CollapseAtBreak(t, b - 1, e - 1);
      assert t[e - 1..] == s[e..];
      assert [s[0]] + t[..b - 1] == s[..b];
    }
  }

  /**
   * The pieces, rejoined with `\n\n`, are the text with its blank-line runs
   * collapsed. As no piece holds a blank line, this fixes every piece.
   */
  lemma {:induction false} SplitBlankCollapse(s: string)
    ensures Join(SplitBlank(s), Blank) == CollapseBreaks(s)
    decreases |s|
  {
    var b := NextBreak(s, 0);
    if b == |s| {
      CollapseNoBreak(s);
    } else {
      var e := NewlineRunEnd(s, b);
      var rest := SplitBlank(s[e..]);
      var pieces := [s[..b]] + rest;
      assert SplitBlank(s) == pieces;
      assert |pieces| > 1 && pieces[0] == s[..b] && pieces[1..] == rest;
      assert Join(pieces, Blank) == s[..b] + Blank + Join(rest, Blank);
      SplitBlankCollapse(s[e..]);
      CollapseAtBreak(s, b, e);
    }
  }

  /** A block of text that starts with a space is kept: `" x\n\ny"` splits into `x` and `y`. */
  lemma SplitParagraphsExample()
    ensures SplitParagraphs(" x\n\ny") == ["x", "y"]
  {
    var s := " x\n\ny";
    assert NormalizeNewlines(s) == s by {
      NoCrLfExample();
    }
    SplitBlankExample();
    TrimExample();
    assert NonEmpty(["x", "y"]) == ["x", "y"];
  }

  lemma NoCrLfExample()
    ensures NoCrLf(" x\n\ny")
  {
    var s := " x\n\ny";
    forall k | 0 <= k < |s| - 1
      ensures !(s[k] == '\r' && s[k + 1] == '\n')
    {
    }
  }

  lemma SplitBlankExample()
    ensures SplitBlank(" x\n\ny") == [" x", "y"]
  {
    var s := " x\n\ny";
    assert NextBreak(s, 0) == 2 by {
      assert !BreakAt(s, 0) && !BreakAt(s, 1) && BreakAt(s, 2);
    }
    assert NewlineRunEnd(s, 2) == 4;
    assert s[..2] == " x" && s[4..] == "y";
    assert NextBreak("y", 0) == 1;
  }

  lemma TrimExample()
    ensures TrimAll([" x", "y"]) == ["x", "y"]
  {
    assert Trim(" x") == "x" by {
      assert IsSpace(' ') && !IsSpace('x');
      assert LeadingSpace(" x") == 1 && TrailingSpace(" x") == 0;
    }
    assert Trim("y") == "y" by { assert !IsSpace('y'); }
  }

  /**
   * `splitParagraphs(text)`. Absent text is the empty string; every
   * paragraph is non-empty, trimmed and free of blank lines.
   */
  function SplitParagraphs(text: string): (r: seq<string>)
    ensures |text| == 0 ==> r == []
    ensures forall i :: 0 <= i < |r| ==> r[i] != ""
    ensures forall i :: 0 <= i < |r| ==> IsTrimmed(r[i])
    ensures forall i :: 0 <= i < |r| ==> NoBlankLine(r[i])
    ensures NoCrLf(text) ==> forall i :: 0 <= i < |r| ==> NoCrLf(r[i])
  {
    var r := NonEmpty(TrimAll(SplitBlank(NormalizeNewlines(text))));
    ParagraphsShape(text, r);
    r
  }

  lemma ParagraphsShape(text: string, r: seq<string>)
    requires r == NonEmpty(TrimAll(SplitBlank(NormalizeNewlines(text))))
    ensures forall i :: 0 <= i < |r| ==> IsTrimmed(r[i])
    ensures forall i :: 0 <= i < |r| ==> NoBlankLine(r[i])
    ensures NoCrLf(text) ==> forall i :: 0 <= i < |r| ==> NoCrLf(r[i])
  {
    TrimmedPiecesShape(text);
    var trimmed := TrimAll(SplitBlank(NormalizeNewlines(text)));
    forall i | 0 <= i < |r|
      ensures IsTrimmed(r[i]) && NoBlankLine(r[i]) && (NoCrLf(text) ==> NoCrLf(r[i]))
    {
      assert r[i] in r;
      assert r[i] in trimmed;
    }
  }

  lemma TrimmedPiecesShape(text: string)
    ensures forall t :: t in TrimAll(SplitBlank(NormalizeNewlines(text))) ==>
      IsTrimmed(t) && NoBlankLine(t) && (NoCrLf(text) ==> NoCrLf(t))
  {
    var pieces := SplitBlank(NormalizeNewlines(text));
    var trimmed := TrimAll(pieces);
    forall i | 0 <= i < |pieces|
      ensures NoBlankLine(trimmed[i])
      ensures NoCrLf(text) ==> NoCrLf(trimmed[i])
    {
      NoPairSlice(pieces[i], '\n', '\n', TrimStart(pieces[i]), TrimEnd(pieces[i]));
      if NoCrLf(text) {
        NoPairSlice(pieces[i], '\r', '\n', TrimStart(pieces[i]), TrimEnd(pieces[i]));
      }
    }
  }

  /** The shape of a paragraph that survives a split unchanged. */
  predicate IsParagraph(p: string) {
    p != "" && IsTrimmed(p) && NoBlankLine(p) && NoCrLf(p)
  }

  /** The separator between rejoined paragraphs. */
  const Blank: string := "\n\n"

  lemma JoinNoCrLf(ps: seq<string>)
    requires forall i :: 0 <= i < |ps| ==> IsParagraph(ps[i])
    ensures NoCrLf(Join(ps, Blank))
  {
    if |ps| > 1 {
      JoinNoCrLf(ps[1..]);
      var p, j := ps[0], Join(ps[1..], Blank);
      var s := p + Blank + j;
      assert IsSpace('\r');
      forall k | 0 <= k < |s| - 1
        ensures !(s[k] == '\r' && s[k + 1] == '\n')
      {
        if k < |p| - 1 {
          assert s[k] == p[k] && s[k + 1] == p[k + 1];
        } else if k == |p| - 1 {
          assert s[k] == p[|p| - 1];
        } else if k < |p| + 2 {
          assert s[k] == '\n';
        } else {
          assert s[k] == j[k - |p| - 2] && s[k + 1] == j[k - |p| - 1];
        }
      }
    }
  }

  /** Re-splitting joined pieces recovers the pieces. */
  lemma {:induction false} SplitBlankJoin(ps: seq<string>)
    requires |ps| >= 1
    requires forall i :: 0 <= i < |ps| ==> IsParagraph(ps[i])
    ensures SplitBlank(Join(ps, Blank)) == ps
  {
    var p := ps[0];
    if |ps| == 1 {
      BlankFreeHasNoBreak(p, 0);
    } else {
      var j := Join(ps[1..], Blank);
      var s := p + Blank + j;
      assert Join(ps, Blank) == s;
      assert j[0] == ps[1][0] by { assert |ps[1..]| >= 1; JoinHead(ps[1..]); }
      assert IsSpace('\n');
      assert BreakAt(s, |p|);
      forall k | 0 <= k < |p|
        ensures !BreakAt(s, k)
      {
        if k < |p| - 1 {
          assert s[k] == p[k] && s[k + 1] == p[k + 1];
        } else {
          assert s[k] == p[|p| - 1];
        }
      }
      var b := NextBreak(s, 0);
      assert b == |p|;
      var e := NewlineRunEnd(s, b);
      assert s[|p| + 2] == j[0];
      assert e == |p| + 2;
      assert s[..b] == p;
      assert s[e..] == j;
      SplitBlankJoin(ps[1..]);
    }
  }

  /** A non-empty join starts with the first piece's first character. */
  lemma JoinHead(ps: seq<string>)
    requires |ps| >= 1 && ps[0] != ""
    ensures Join(ps, Blank) != "" && Join(ps, Blank)[0] == ps[0][0]
  {
  }

  /**
   * Chunking is idempotent on chunked text: joining paragraphs with a
   * blank line and splitting again gives the same paragraphs.
   */
  lemma {:induction false} ParagraphsRoundTrip(ps: seq<string>)
    requires forall i :: 0 <= i < |ps| ==> IsParagraph(ps[i])
    ensures SplitParagraphs(Join(ps, Blank)) == ps
  {
    var s := Join(ps, Blank);
    JoinNoCrLf(ps);
    assert NormalizeNewlines(s) == s;
    if |ps| == 0 {
      assert SplitBlank("") == [""];
    } else {
      SplitBlankJoin(ps);
      assert TrimAll(ps) == ps;
    }
  }

  /**
   * Splitting already-split text changes nothing: when no paragraph of
   * `text` keeps a `\r\n` (one can, from `\r\r\n`), rejoining its paragraphs
   * and splitting again gives the same paragraphs.
   */
  lemma SplitParagraphsIdempotent(text: string)
    requires forall i :: 0 <= i < |SplitParagraphs(text)| ==> NoCrLf(SplitParagraphs(text)[i])
    ensures SplitParagraphs(Join(SplitParagraphs(text), Blank)) == SplitParagraphs(text)
  {
    ParagraphsRoundTrip(SplitParagraphs(text));
  }

  /** Deleting paired carriage returns distributes over a cut that splits no pair. */
  lemma {:induction false} DropPairedCrAppend(a: string, b: string)
    requires a == "" || a[|a| - 1] != '\r'
    ensures DropPairedCr(a + b) == DropPairedCr(a) + DropPairedCr(b)
  {
    if |a| > 0 {
      var ab := a + b;
      assert ab[1..] == a[1..] + b;
      DropPairedCrAppend(a[1..], b);
      assert (ab[0] == '\r' && |ab| > 1 && ab[1] == '\n') <==> (a[0] == '\r' && |a| > 1 && a[1] == '\n') by {
        assert ab[0] == a[0];
        if |a| > 1 { assert ab[1] == a[1]; }
      }
    } else {
      assert a + b == b;
    }
  }

  /** The separator of paragraphs rejoined as Windows text. */
  const CrBlank: string := "\r\n\r\n"

  lemma CrBlankDrops()
    ensures DropPairedCr(CrBlank) == Blank
  {
    assert CrBlank[1..] == "\n\r\n" && CrBlank[1..][1..] == "\r\n";
    assert CrBlank[1..][1..][1..] == "\n";
  }

  /** A paragraph has no `\r\n` pair to drop. */
  lemma ParagraphDrops(p: string)
    requires IsParagraph(p)
    ensures DropPairedCr(p) == p
  {
    assert NormalizeNewlines(p) == p;
  }

  lemma {:induction false} DropCrJoin(ps: seq<string>)
    requires forall i :: 0 <= i < |ps| ==> IsParagraph(ps[i])
    ensures DropPairedCr(Join(ps, CrBlank)) == Join(ps, Blank)
  {
    if |ps| == 1 {
      ParagraphDrops(ps[0]);
    } else if |ps| > 1 {
      var p, rest := ps[0], Join(ps[1..], CrBlank);
      DropCrJoin(ps[1..]);
      ParagraphDrops(p);
      assert Join(ps, CrBlank) == p + (CrBlank + rest);
      DropPairedCrAppend(p, CrBlank + rest);
      DropPairedCrAppend(CrBlank, rest);
      CrBlankDrops();
      assert Join(ps, Blank) == p + (Blank + Join(ps[1..], Blank));
    }
  }

  /** Joining paragraphs with `\r\n\r\n` and normalising gives the `\n\n` join. */
  lemma NormalizeCrJoin(ps: seq<string>)
    requires forall i :: 0 <= i < |ps| ==> IsParagraph(ps[i])
    ensures NormalizeNewlines(Join(ps, CrBlank)) == Join(ps, Blank)
  {
    DropCrJoin(ps);
  }

  /** Text with the same normalised form splits into the same paragraphs. */
  lemma SameNormalForm(a: string, b: string)
    requires NormalizeNewlines(a) == NormalizeNewlines(b)
    ensures SplitParagraphs(a) == SplitParagraphs(b)
  {
  }

  /**
   * Windows line endings split like Unix ones: paragraphs joined with
   * `\r\n\r\n` split back into the same paragraphs.
   */
  lemma WindowsRoundTrip(ps: seq<string>)
    requires forall i :: 0 <= i < |ps| ==> IsParagraph(ps[i])
    ensures SplitParagraphs(Join(ps, CrBlank)) == ps
  {
    NormalizeCrJoin(ps);
    JoinNoCrLf(ps);
    SameNormalForm(Join(ps, CrBlank), Join(ps, Blank));
    ParagraphsRoundTrip(ps);
  }

  /** Two Windows paragraphs: `"a\r\n\r\nb"` splits into `"a"` and `"b"`. */
  lemma WindowsExample()
    ensures SplitParagraphs("a\r\n\r\nb") == ["a", "b"]
  {
    var ps := ["a", "b"];
    assert Join(ps, CrBlank) == "a\r\n\r\nb" by {
      assert Join(ps[1..], CrBlank) == "b";
    }
    WindowsRoundTrip(ps);
  }
}

=== FILE: ranking.dfy ===
/**
 * Stable descending sort and "take the first k", the ranking step shared by
 * `topKeywords`, `retrieveTopChunks` and `pickCitations`.
 *
 * `Array.prototype.sort` is stable, so sorting with the comparator
 * `(a, b) => key(b) - key(a)` orders by descending key and keeps equal keys
 * in their original order. Stability is stated through `Tier`: the
 * subsequence of elements that share one key value is left unchanged.
 */
module Ranking {
  import opened Base

  ghost predicate SortedDesc<T>(xs: seq<T>, key: T -> real) {
    forall i, j :: 0 <= i < j < |xs| ==> key(xs[i]) >= key(xs[j])
  }

  /** The elements of `xs` whose key is `v`, in their order in `xs`. */
  function Tier<T>(xs: seq<T>, key: T -> real, v: real): seq<T>
  {
    if |xs| == 0 then []
    else (if key(xs[0]) == v then [xs[0]] else []) + Tier(xs[1..], key, v)
  }

  /** Inserts `x` in front of the first element whose key is not larger. */
  function Insert<T>(x: T, s: seq<T>, key: T -> real): seq<T>
  {
    if |s| == 0 || key(s[0]) <= key(x) then [x] + s
    else [s[0]] + Insert(x, s[1..], key)
  }

  lemma {:induction false} InsertPermutes<T>(x: T, s: seq<T>, key: T -> real)
    ensures multiset(Insert(x, s, key)) == multiset{x} + multiset(s)
    ensures |Insert(x, s, key)| == |s| + 1
  {
    if |s| > 0 && key(s[0]) > key(x) {
      InsertPermutes(x, s[1..], key);
      assert s == [s[0]] + s[1..];
    }
  }

  lemma {:induction false} InsertSorted<T>(x: T, s: seq<T>, key: T -> real)
    requires SortedDesc(s, key)
    ensures SortedDesc(Insert(x, s, key), key)
  {
    if |s| > 0 && key(s[0]) > key(x) {
      var t := Insert(x, s[1..], key);
      var r := [s[0]] + t;
      InsertSorted(x, s[1..], key);
      InsertPermutes(x, s[1..], key);
      forall j | 0 <= j < |t|
        ensures key(s[0]) >= key(t[j])
      {
        assert t[j] in multiset(t);
        if t[j] != x {
          assert t[j] in multiset(s[1..]);
          var m :| 0 <= m < |s[1..]| && s[1..][m] == t[j];
          assert s[m + 1] == t[j];
        }
      }
      forall i, j | 0 <= i < j < |r|
        ensures key(r[i]) >= key(r[j])
      {
        if i > 0 {
          assert r[i] == t[i - 1] && r[j] == t[j - 1];
        } else {
          assert r[j] == t[j - 1];
        }
      }
    }
  }

  lemma {:induction false} InsertTier<T>(x: T, s: seq<T>, key: T -> real, v: real)
    ensures Tier(Insert(x, s, key), key, v) == (if key(x) == v then [x] else []) + Tier(s, key, v)
  {
    var r := Insert(x, s, key);
    if |s| == 0 || key(s[0]) <= key(x) {
      assert r[1..] == s;
    } else {
      var t := Insert(x, s[1..], key);
      assert r[1..] == t;
      InsertTier(x, s[1..], key, v);
      assert key(s[0]) == v ==> key(x) != v;
    }
  }

  lemma {:induction false} InsertNoDup<T>(x: T, s: seq<T>, key: T -> real)
    requires x !in s && NoDup(s)
    ensures NoDup(Insert(x, s, key))
  {
    if |s| == 0 || key(s[0]) <= key(x) {
      ConsNoDup(x, s);
    } else {
      var t := Insert(x, s[1..], key);
      InsertNoDup(x, s[1..], key);
      InsertPermutes(x, s[1..], key);
      assert s[0] !in multiset(t) by {
        assert s[0] != x;
        assert s[0] !in s[1..];
      }
      ConsNoDup(s[0], t);
    }
  }

  /** Insertion sort by descending key; equal keys keep their input order. */
  function SortDesc<T>(xs: seq<T>, key: T -> real): (r: seq<T>)
    ensures multiset(r) == multiset(xs)
    ensures |r| == |xs|
  {
    if |xs| == 0 then []
    else
      var rest := SortDesc(xs[1..], key);
      InsertPermutes(xs[0], rest, key);
      assert xs == [xs[0]] + xs[1..];
      Insert(xs[0], rest, key)
  }

  /** The sort's result is in non-increasing key order. */
  lemma {:induction false} SortDescSorted<T>(xs: seq<T>, key: T -> real)
    ensures SortedDesc(SortDesc(xs, key), key)
  {
    if |xs| > 0 {
      SortDescSorted(xs[1..], key);
      InsertSorted(xs[0], SortDesc(xs[1..], key), key);
    }
  }

  /** The sort is stable: the elements sharing one key keep their order. */
  lemma {:induction false} SortDescTier<T>(xs: seq<T>, key: T -> real, v: real)
    ensures Tier(SortDesc(xs, key), key, v) == Tier(xs, key, v)
  {
    if |xs| > 0 {
      SortDescTier(xs[1..], key, v);
      InsertTier(xs[0], SortDesc(xs[1..], key), key, v);
    }
  }

  lemma SortDescTiers<T>(xs: seq<T>, key: T -> real)
    ensures forall v :: Tier(SortDesc(xs, key), key, v) == Tier(xs, key, v)
  {
    forall v ensures Tier(SortDesc(xs, key), key, v) == Tier(xs, key, v) {
      SortDescTier(xs, key, v);
    }
  }

  /** Sorting distinct elements yields distinct elements. */
  lemma {:induction false} SortDescNoDup<T>(xs: seq<T>, key: T -> real)
    requires NoDup(xs)
    ensures NoDup(SortDesc(xs, key))
  {
    if |xs| > 0 {
      var rest := SortDesc(xs[1..], key);
      assert xs == [xs[0]] + xs[1..];
      SortDescNoDup(xs[1..], key);
      assert xs[0] !in multiset(rest);
      InsertNoDup(xs[0], rest, key);
    }
  }

  /** A prefix's tier is a prefix of the whole sequence's tier. */
  lemma {:induction false} TierOfPrefix<T>(xs: seq<T>, key: T -> real, v: real, n: nat)
    requires n <= |xs|
    ensures Tier(xs[..n], key, v) <= Tier(xs, key, v)
  {
    if n > 0 {
      var h := if key(xs[0]) == v then [xs[0]] else [];
      assert xs[..n][1..] == xs[1..][..n - 1];
      TierOfPrefix(xs[1..], key, v, n - 1);
      assert Tier(xs[..n], key, v) == h + Tier(xs[1..][..n - 1], key, v);
      assert Tier(xs, key, v) == h + Tier(xs[1..], key, v);
    }
  }

  /** Stable sort, then take the first `k`: `min(k, |xs|)` elements of `xs`. */
  function TopK<T>(xs: seq<T>, key: T -> real, k: nat): (r: seq<T>)
    ensures |r| == Min(k, |xs|)
    ensures multiset(r) <= multiset(xs)
  {
    var sorted := SortDesc(xs, key);
    var n := Min(k, |xs|);
    PrefixKeepsElements(sorted, n);
    sorted[..n]
  }

  lemma PrefixKeepsElements<T>(s: seq<T>, n: nat)
    requires n <= |s|
    ensures multiset(s[..n]) <= multiset(s)
    ensures NoDup(s) ==> NoDup(s[..n])
  {
    assert s == s[..n] + s[n..];
  }

  lemma PrefixKeepsTiers<T>(xs: seq<T>, sorted: seq<T>, key: T -> real, n: nat)
    requires n <= |sorted|
    requires forall v :: Tier(sorted, key, v) == Tier(xs, key, v)
    ensures forall v :: Tier(sorted[..n], key, v) <= Tier(xs, key, v)
  {
    forall v ensures Tier(sorted[..n], key, v) <= Tier(xs, key, v) {
      TierOfPrefix(sorted, key, v, n);
    }
  }

  lemma PrefixIsTop<T>(xs: seq<T>, sorted: seq<T>, key: T -> real, n: nat)
    requires n <= |sorted|
    requires multiset(sorted) == multiset(xs)
    requires SortedDesc(sorted, key)
    ensures forall i, j :: 0 <= i < |xs| && 0 <= j < n && xs[i] !in sorted[..n] ==>
      key(sorted[..n][j]) >= key(xs[i])
  {
    var r := sorted[..n];
    forall i, j | 0 <= i < |xs| && 0 <= j < n && xs[i] !in r
      ensures key(r[j]) >= key(xs[i])
    {
      assert xs[i] in multiset(sorted);
      var m :| 0 <= m < |sorted| && sorted[m] == xs[i];
      assert j < m;
    }
  }

  /**
   * `r` is a top-`k` ranking of `xs`: `min(k, |xs|)` of its elements, in
   * non-increasing key order, ties in input order, none left out ranking
   * above one taken.
   */
  ghost predicate IsTopK<T>(r: seq<T>, xs: seq<T>, key: T -> real, k: nat) {
    && |r| == Min(k, |xs|)
    && multiset(r) <= multiset(xs)
    && SortedDesc(r, key)
    && (forall v :: Tier(r, key, v) <= Tier(xs, key, v))
    && (forall i, j :: 0 <= i < |xs| && 0 <= j < |r| && xs[i] !in r ==> key(r[j]) >= key(xs[i]))
  }

  /**
   * The first `k` of the stable sort are a top-`k` ranking of `xs`: in
   * non-increasing key order, ties in input order, and nothing left out
   * ranks above anything taken.
   */
  lemma TopKRanks<T>(xs: seq<T>, key: T -> real, k: nat)
    ensures IsTopK(TopK(xs, key, k), xs, key, k)
  {
    var sorted := SortDesc(xs, key);
    var n := Min(k, |xs|);
    SortDescSorted(xs, key);
    SortDescTiers(xs, key);
    PrefixSorted(sorted, key, n);
    PrefixKeepsTiers(xs, sorted, key, n);
    PrefixIsTop(xs, sorted, key, n);
  }

  lemma PrefixSorted<T>(s: seq<T>, key: T -> real, n: nat)
    requires n <= |s| && SortedDesc(s, key)
    ensures SortedDesc(s[..n], key)
  {
  }

  /** Every element taken comes from the input. */
  lemma TopKFrom<T>(xs: seq<T>, key: T -> real, k: nat, j: nat)
    requires j < |TopK(xs, key, k)|
    ensures TopK(xs, key, k)[j] in xs
  {
    assert TopK(xs, key, k)[j] in multiset(TopK(xs, key, k));
  }

  /** An element taken earlier has a key at least as large. */
  lemma TopKOrdered<T>(xs: seq<T>, key: T -> real, k: nat, i: nat, j: nat)
    requires i < j < |TopK(xs, key, k)|
    ensures key(TopK(xs, key, k)[i]) >= key(TopK(xs, key, k)[j])
  {
    TopKRanks(xs, key, k);
  }

  /** An element left out has a key no larger than any element taken. */
  lemma TopKAbove<T>(xs: seq<T>, key: T -> real, k: nat, x: T, j: nat)
    requires x in xs && x !in TopK(xs, key, k)
    requires j < |TopK(xs, key, k)|
    ensures key(TopK(xs, key, k)[j]) >= key(x)
  {
    TopKRanks(xs, key, k);
    var i :| 0 <= i < |xs| && xs[i] == x;
  }

  /** Ranking distinct elements yields distinct elements. */
  lemma TopKNoDup<T>(xs: seq<T>, key: T -> real, k: nat)
    requires NoDup(xs)
    ensures NoDup(TopK(xs, key, k))
  {
    SortDescNoDup(xs, key);
    PrefixKeepsElements(SortDesc(xs, key), Min(k, |xs|));
  }

  /** When every key is equal, ranking keeps the input order. */
  lemma {:induction false} TopKAllEqual<T>(xs: seq<T>, key: T -> real, k: nat, v: real)
    requires forall i :: 0 <= i < |xs| ==> key(xs[i]) == v
    ensures TopK(xs, key, k) == Take(xs, k)
  {
    var sorted := SortDesc(xs, key);
    assert forall i :: 0 <= i < |sorted| ==> key(sorted[i]) == v by {
      forall i | 0 <= i < |sorted| ensures key(sorted[i]) == v {
        assert sorted[i] in multiset(xs);
      }
    }
    SortDescTier(xs, key, v);
    WholeTier(xs, key, v);
    WholeTier(sorted, key, v);
  }

  lemma {:induction false} WholeTier<T>(xs: seq<T>, key: T -> real, v: real)
    requires forall i :: 0 <= i < |xs| ==> key(xs[i]) == v
    ensures Tier(xs, key, v) == xs
  {
    if |xs| > 0 {
      WholeTier(xs[1..], key, v);
    }
  }
}

=== FILE: sentences.dfy ===
/**
 * Sentence clipping (`splitSentences`): the text is cut at every run of
 * white space that follows one of `.!?。！？`, pieces are trimmed, empty
 * ones dropped, and the first `max` sentences are joined by a space.
 */
module Sentences {
  import opened Base
  import opened Chars

  /** A sentence break starts at `k`: the lookbehind `(?<=[.!?。！？])\s`. */
  predicate SentenceBreakAt(s: string, k: nat) {
    1 <= k < |s| && IsTerminator(s[k - 1]) && IsSpace(s[k])
  }

  /** The first break at or after `i`, or `|s|` when there is none. */
  function NextSentenceBreak(s: string, i: nat): (j: nat)
    requires i <= |s|
    ensures i <= j <= |s|
    ensures j < |s| ==> SentenceBreakAt(s, j)
    ensures forall k :: i <= k < j ==> !SentenceBreakAt(s, k)
    decreases |s| - i
  {
    if i >= |s| then |s|
    else if SentenceBreakAt(s, i) then i
    else NextSentenceBreak(s, i + 1)
  }

  /** The end of the run of white space starting at `i` (greedy `\s+`). */
  function SpaceRunEnd(s: string, i: nat): (j: nat)
    requires i <= |s|
    ensures i <= j <= |s|
    ensures j < |s| ==> !IsSpace(s[j])
    decreases |s| - i
  {
    if i == |s| || !IsSpace(s[i]) then i else SpaceRunEnd(s, i + 1)
  }

  /** `split(/(?<=[.!?。！？])\s+/)`. */
  function SplitAtBreaks(s: string): (r: seq<string>)
    ensures |r| >= 1
    decreases |s|
  {
    var b := NextSentenceBreak(s, 0);
    if b == |s| then [s] else [s[..b]] + SplitAtBreaks(s[SpaceRunEnd(s, b)..])
  }

  /** The sentences of `text`: split, trimmed, empty ones dropped. */
  function SentencePieces(text: string): seq<string>
  {
    NonEmpty(TrimAll(SplitAtBreaks(text)))
  }

  /** `splitSentences(text, max)`: at most `max` sentences, space-joined. */
  function SplitSentences(text: string, max: nat): (r: string)
    ensures max == 0 ==> r == ""
    ensures IsTrimmed(r)
  {
    var ps := Take(SentencePieces(text), max);
    SentencePiecesWellFormed(text);
    WellFormedPrefix(SentencePieces(text), |ps|);
    JoinTrimmed(ps);
    Join(ps, " ")
  }

  predicate NoSentenceBreak(s: string) {
    forall k :: 0 <= k < |s| ==> !SentenceBreakAt(s, k)
  }

  predicate EndsSentence(s: string) {
    |s| > 0 && IsTerminator(s[|s| - 1])
  }

  /**
   * What the sentences of any text look like: non-empty, trimmed, with no
   * break inside, and every sentence but the last closed by a terminator.
   */
  predicate WellFormed(ps: seq<string>) {
    && (forall i :: 0 <= i < |ps| ==> ps[i] != "" && IsTrimmed(ps[i]) && NoSentenceBreak(ps[i]))
    && (forall i :: 0 <= i < |ps| - 1 ==> EndsSentence(ps[i]))
  }

  lemma WellFormedPrefix(ps: seq<string>, n: nat)
    requires WellFormed(ps) && n <= |ps|
    ensures WellFormed(ps[..n])
  {
  }

  /** A slice of break-free text is break-free. */
  lemma NoSentenceBreakSlice(s: string, i: nat, j: nat)
    requires i <= j <= |s|
    requires forall k :: i < k < j ==> !SentenceBreakAt(s, k)
    ensures NoSentenceBreak(s[i..j])
  {
    var t := s[i..j];
    forall k | 0 <= k < |t|
      ensures !SentenceBreakAt(t, k)
    {
      if 1 <= k {
        assert !SentenceBreakAt(s, i + k);
        assert t[k - 1] == s[i + k - 1] && t[k] == s[i + k];
      }
    }
  }

  lemma SentencePiecesUnfold(s: string)
    requires NextSentenceBreak(s, 0) < |s|
    ensures SentencePieces(s) ==
      var b := NextSentenceBreak(s, 0);
      NonEmpty([Trim(s[..b])] + TrimAll(SplitAtBreaks(s[SpaceRunEnd(s, b)..])))
  {
    var b := NextSentenceBreak(s, 0);
    var xs := [s[..b]] + SplitAtBreaks(s[SpaceRunEnd(s, b)..]);
    assert SplitAtBreaks(s) == xs;
    assert xs[1..] == SplitAtBreaks(s[SpaceRunEnd(s, b)..]);
  }

  /** Every text splits into well-formed sentences. */
  lemma {:induction false} SentencePiecesWellFormed(s: string)
    ensures WellFormed(SentencePieces(s))
    decreases |s|
  {
    var b := NextSentenceBreak(s, 0);
    if b == |s| {
      OnlySentence(s);
    } else {
      var e := SpaceRunEnd(s, b);
      var t := Trim(s[..b]);
      FirstSentence(s);
      SentencePiecesUnfold(s);
      SentencePiecesWellFormed(s[e..]);
      var rest := TrimAll(SplitAtBreaks(s[e..]));
      assert NonEmpty([t] + rest) == [t] + NonEmpty(rest) by {
        assert ([t] + rest)[1..] == rest;
      }
      ConsWellFormed(t, NonEmpty(rest));
    }
  }

  /** A text without a break is at most one sentence. */
  lemma OnlySentence(s: string)
    requires NextSentenceBreak(s, 0) == |s|
    ensures WellFormed(SentencePieces(s))
  {
    NoSentenceBreakSlice(s, 0, |s|);
    assert s[0..|s|] == s;
    var t := Trim(s);
    TrimBreakFree(s);
    assert SplitAtBreaks(s) == [s];
    assert TrimAll([s]) == [t];
    if t == "" {
      assert NonEmpty([t]) == [];
    } else {
      assert NonEmpty([t]) == [t];
      SingleWellFormed(t);
    }
  }

  lemma SingleWellFormed(t: string)
    requires t != "" && IsTrimmed(t) && NoSentenceBreak(t)
    ensures WellFormed([t])
  {
  }

  /** The text before the first break is one sentence, closed by its terminator. */
  lemma FirstSentence(s: string)
    requires NextSentenceBreak(s, 0) < |s|
    ensures var t := Trim(s[..NextSentenceBreak(s, 0)]);
      t != "" && IsTrimmed(t) && NoSentenceBreak(t) && EndsSentence(t)
  {
    var b := NextSentenceBreak(s, 0);
    var p := s[..b];
    NoSentenceBreakSlice(s, 0, b);
    assert s[0..b] == p;
    assert p[|p| - 1] == s[b - 1];
    assert IsTerminator(p[|p| - 1]);
    TrimKeepsLast(p);
    TrimBreakFree(p);
  }

  /** Trimming break-free text leaves it break-free. */
  lemma TrimBreakFree(p: string)
    requires NoSentenceBreak(p)
    ensures NoSentenceBreak(Trim(p))
  {
    NoSentenceBreakSlice(p, TrimStart(p), TrimEnd(p));
  }

  lemma ConsWellFormed(t: string, ps: seq<string>)
    requires t != "" && IsTrimmed(t) && NoSentenceBreak(t) && EndsSentence(t)
    requires WellFormed(ps)
    ensures WellFormed([t] + ps)
  {
    var r := [t] + ps;
    forall i | 1 <= i < |r|
      ensures r[i] == ps[i - 1]
    {
    }
  }

  /** Joining trimmed, non-empty sentences with a space gives trimmed text. */
  lemma JoinTrimmed(ps: seq<string>)
    requires forall i :: 0 <= i < |ps| ==> ps[i] != "" && IsTrimmed(ps[i])
    ensures IsTrimmed(Join(ps, " "))
    ensures |ps| > 0 ==> Join(ps, " ")[0] == ps[0][0]
  {
    if |ps| > 1 {
      JoinTrimmed(ps[1..]);
    }
  }

  lemma BreakFreeRunsToEnd(s: string, i: nat)
    requires i <= |s| && NoSentenceBreak(s)
    ensures NextSentenceBreak(s, i) == |s|
    decreases |s| - i
  {
    if i < |s| {
      assert !SentenceBreakAt(s, i);
      BreakFreeRunsToEnd(s, i + 1);
    }
  }

  lemma {:induction false} SplitAtBreaksJoin(ps: seq<string>)
    requires |ps| >= 1 && WellFormed(ps)
    ensures SplitAtBreaks(Join(ps, " ")) == ps
  {
    var p := ps[0];
    if |ps| == 1 {
      BreakFreeRunsToEnd(p, 0);
    } else {
      var j := Join(ps[1..], " ");
      var s := p + " " + j;
      assert Join(ps, " ") == s;
      JoinTrimmed(ps[1..]);
      assert j[0] == ps[1][0];
      assert !IsSpace(j[0]);
      forall k | 0 <= k < |p|
        ensures !SentenceBreakAt(s, k)
      {
        if 1 <= k {
          assert !SentenceBreakAt(p, k);
          assert s[k - 1] == p[k - 1] && s[k] == p[k];
        }
      }
      assert SentenceBreakAt(s, |p|) by {
        assert s[|p| - 1] == p[|p| - 1];
        assert EndsSentence(ps[0]);
      }
      var b := NextSentenceBreak(s, 0);
      assert b == |p|;
      assert s[|p| + 1] == j[0];
      assert SpaceRunEnd(s, b) == |p| + 1 by {
        assert SpaceRunEnd(s, b + 1) == b + 1;
      }
      assert s[..b] == p;
      assert s[|p| + 1..] == j;
      assert WellFormed(ps[1..]);
      SplitAtBreaksJoin(ps[1..]);
    }
  }

  /** Well-formed sentences come back unchanged after joining. */
  lemma {:induction false} SentencesRoundTrip(ps: seq<string>)
    requires WellFormed(ps)
    ensures SentencePieces(Join(ps, " ")) == ps
  {
    if |ps| == 0 {
      assert SplitAtBreaks("") == [""];
      assert TrimAll([""]) == [""];
    } else {
      SplitAtBreaksJoin(ps);
      assert TrimAll(ps) == ps;
    }
  }

  /**
   * Clipping keeps exactly `min(max, n)` sentences of the `n` the text has,
   * and clipping the clipped text again changes nothing.
   */
  lemma ClipSentences(text: string, max: nat)
    ensures SentencePieces(SplitSentences(text, max)) == Take(SentencePieces(text), max)
    ensures |SentencePieces(SplitSentences(text, max))| == Min(max, |SentencePieces(text)|)
    ensures SplitSentences(SplitSentences(text, max), max) == SplitSentences(text, max)
  {
    var ps := Take(SentencePieces(text), max);
    var r := SplitSentences(text, max);
    assert r == Join(ps, " ");
    SentencePiecesWellFormed(text);
    WellFormedPrefix(SentencePieces(text), |ps|);
    SentencesRoundTrip(ps);
    assert SentencePieces(r) == ps;
    assert Take(ps, max) == ps;
  }
}

=== FILE: tfidf.dfy ===
/**
 * Sparse TF-IDF retrieval (`buildIdf`, `vectorize`, `cosine`,
 * `retrieveTopChunks`).
 *
 * Numbers are exact reals. `Math.log` and `Math.sqrt` are not computed: they
 * are passed in as a `Numerics` value of which only the signs are known,
 * which is all the ranking facts below depend on.
 */
module Tfidf {
  import opened Base
  import opened Tokens
  import opened Ranking
  import opened ObjectKeys
  import opened Corpus

  datatype RealOps = RealOps(ln: real -> real, sqrt: real -> real)

  /** A logarithm positive above 1 and a square root positive above 0. */
  type Numerics = o: RealOps
    | (forall x: real :: x > 1.0 ==> o.ln(x) > 0.0) && (forall x: real :: x > 0.0 ==> o.sqrt(x) > 0.0)
    witness RealOps(x => x - 1.0, x => x)

  /** `new Set(tokenize(text))`. */
  function TermSet(text: string): set<string>
  {
    set t | t in Tokenize(text)
  }

  /** Every term of every chunk. */
  function Vocabulary(chunks: seq<Chunk>): set<string>
  {
    if |chunks| == 0 then {}
    else Vocabulary(chunks[..|chunks| - 1]) + TermSet(chunks[|chunks| - 1].text)
  }

  /** The number of chunks whose text contains the term `t`. */
  function ChunksContaining(chunks: seq<Chunk>, t: string): (n: nat)
    ensures n <= |chunks|
    ensures n > 0 <==> t in Vocabulary(chunks)
  {
    if |chunks| == 0 then 0
    else ChunksContaining(chunks[..|chunks| - 1], t) + (if t in TermSet(chunks[|chunks| - 1].text) then 1 else 0)
  }

  /**
   * The document-frequency object `df`: each chunk's distinct terms add one
   * to their count.
   */
  function DocFreqs(chunks: seq<Chunk>): (df: map<string, nat>)
    ensures df.Keys == Vocabulary(chunks)
    ensures forall t :: t in df ==> df[t] == ChunksContaining(chunks, t)
    ensures forall t :: t in df ==> 1 <= df[t] <= |chunks|
  {
    if |chunks| == 0 then map[]
    else
      var prev := DocFreqs(chunks[..|chunks| - 1]);
      var seen := TermSet(chunks[|chunks| - 1].text);
      map t | t in prev.Keys + seen :: (if t in prev then prev[t] else 0) + (if t in seen then 1 else 0)
  }

  /** `chunks.length || 1`. */
  function CorpusSize(chunks: seq<Chunk>): (n: nat)
    ensures n >= 1
  {
    if |chunks| == 0 then 1 else |chunks|
  }

  /** `Math.log(1 + N / (1 + n))`: the weight of a term found in `n` of `N` chunks. */
  function Idf(N: nat, n: nat, num: Numerics): (r: real)
    requires N >= 1
    ensures r > 0.0
  {
    var q := N as real / (1.0 + n as real);
    assert q > 0.0;
    num.ln(1.0 + q)
  }

  /** `buildIdf(chunks)`: one positive weight per term of the corpus. */
  function BuildIdf(chunks: seq<Chunk>, num: Numerics): (idf: map<string, real>)
    ensures idf.Keys == Vocabulary(chunks)
    ensures forall t :: t in idf ==> idf[t] == Idf(CorpusSize(chunks), ChunksContaining(chunks, t), num)
    ensures forall t :: t in idf ==> idf[t] > 0.0
  {
    var df := DocFreqs(chunks);
    map t | t in df :: Idf(CorpusSize(chunks), df[t], num)
  }

  /** One entry of a weight object. */
  datatype Weight = Weight(term: string, w: real)

  /** The terms of a weight list, in order. */
  function Terms(v: seq<Weight>): (r: seq<string>)
    ensures |r| == |v|
    ensures forall i :: 0 <= i < |v| ==> r[i] == v[i].term
  {
    if |v| == 0 then [] else [v[0].term] + Terms(v[1..])
  }

  /** The largest count, over `keys`, of a term in `ts` (`max` in `vectorize`). */
  function MaxCount(ts: seq<string>, keys: seq<string>): (m: nat)
    ensures forall i :: 0 <= i < |keys| ==> multiset(ts)[keys[i]] <= m
    // the maximum is attained
    ensures |keys| > 0 ==> exists i :: 0 <= i < |keys| && multiset(ts)[keys[i]] == m
    ensures |keys| == 0 ==> m == 0
  {
    if |keys| == 0 then 0
    else
      var rest := MaxCount(ts, keys[1..]);
      assert |keys| > 1 ==> exists i :: 1 <= i < |keys| && multiset(ts)[keys[i]] == rest by {
        if |keys| > 1 {
          var i :| 0 <= i < |keys[1..]| && multiset(ts)[keys[1..][i]] == rest;
          assert keys[i + 1] == keys[1..][i];
        }
      }
      Max(multiset(ts)[keys[0]], rest)
  }

  /** `(0.5 + 0.5 * (f / max)) * idf`: augmented term frequency times idf. */
  function TermWeight(f: nat, max: nat, idf: real): real
    requires max > 0
  {
    (0.5 + 0.5 * (f as real / max as real)) * idf
  }

  lemma WeightBounds(f: nat, max: nat, idf: real)
    requires 1 <= f <= max
    requires idf > 0.0
    ensures idf / 2.0 < TermWeight(f, max, idf) <= idf
  {
    var q := f as real / max as real;
    assert q * max as real == f as real;
    assert 0.0 < q <= 1.0;
    assert 0.0 < q * idf <= idf;
  }

  /** The keys that `if (!idf[t]) continue` lets through, in order. */
  function KnownTerms(keys: seq<string>, idf: map<string, real>): (r: seq<string>)
    ensures forall t :: t in r <==> t in keys && t in idf && idf[t] != 0.0
    ensures NoDup(keys) ==> NoDup(r)
  {
    if |keys| == 0 then []
    else
      var rest := KnownTerms(keys[1..], idf);
      var k := keys[0];
      assert forall t :: t in keys <==> t == k || t in keys[1..] by {
        assert keys == [k] + keys[1..];
      }
      if k in idf && idf[k] != 0.0 then
        assert NoDup(keys) ==> NoDup([k] + rest) by {
          if NoDup(keys) { ConsNoDup(k, rest); }
        }
        [k] + rest
      else rest
  }

  /** The kept entries of `vec`, one per key that has a nonzero idf. */
  function Weights(keys: seq<string>, ts: seq<string>, max: nat, idf: map<string, real>): (v: seq<Weight>)
    requires max > 0
    ensures forall t :: t in Terms(v) <==> t in keys && t in idf && idf[t] != 0.0
    ensures NoDup(keys) ==> NoDup(Terms(v))
    ensures forall i :: 0 <= i < |v| ==>
      v[i].term in idf && v[i].w == TermWeight(multiset(ts)[v[i].term], max, idf[v[i].term])
  {
    var kept := KnownTerms(keys, idf);
    var v := seq(|kept|, i requires 0 <= i < |kept| => Weight(kept[i], TermWeight(multiset(ts)[kept[i]], max, idf[kept[i]])));
    assert Terms(v) == kept;
    v
  }

  /**
   * `vectorize(text, idf)`: the text's term counts, in `Object.entries`
   * order, each weighted by its augmented frequency and idf; terms without
   * a (nonzero) idf are dropped.
   */
  function Vectorize(text: string, idf: map<string, real>): (v: seq<Weight>)
    // exactly the text's terms that the idf table knows
    ensures forall t :: t in Terms(v) <==> t in Tokenize(text) && t in idf && idf[t] != 0.0
    ensures NoDup(Terms(v))
    // a positive idf yields a weight between half of it and all of it
    ensures forall i :: 0 <= i < |v| ==>
      (v[i].term in idf && (idf[v[i].term] > 0.0 ==> idf[v[i].term] / 2.0 < v[i].w <= idf[v[i].term]))
  {
    var ts := Tokenize(text);
    var keys := EntriesOrder(Dedup(ts));
    var mx := MaxCount(ts, keys);
    var max := if mx == 0 then 1 else mx;
    EntriesOfTokens(ts);
    WeightsBounded(keys, ts, max, idf);
    Weights(keys, ts, max, idf)
  }

  /** The keys of the count object are the distinct tokens. */
  lemma EntriesOfTokens(ts: seq<string>)
    ensures forall t :: t in EntriesOrder(Dedup(ts)) <==> t in ts
    ensures NoDup(EntriesOrder(Dedup(ts)))
  {
    var d := Dedup(ts);
    var keys := EntriesOrder(d);
    forall t ensures t in keys <==> t in ts {
      assert t in keys <==> t in multiset(keys);
      assert t in d <==> t in multiset(d);
      if t in ts {
        var i :| 0 <= i < |ts| && ts[i] == t;
      }
      if t in d {
        var i :| 0 <= i < |d| && d[i] == t;
      }
    }
  }

  lemma WeightsBounded(keys: seq<string>, ts: seq<string>, max: nat, idf: map<string, real>)
    requires max > 0
    requires forall t :: t in keys ==> t in ts
    requires forall i :: 0 <= i < |keys| ==> multiset(ts)[keys[i]] <= max
    ensures forall i :: 0 <= i < |Weights(keys, ts, max, idf)| ==>
      var x := Weights(keys, ts, max, idf)[i];
      idf[x.term] > 0.0 ==> idf[x.term] / 2.0 < x.w <= idf[x.term]
  {
    var v := Weights(keys, ts, max, idf);
    forall i | 0 <= i < |v| && idf[v[i].term] > 0.0
      ensures idf[v[i].term] / 2.0 < v[i].w <= idf[v[i].term]
    {
      var t := v[i].term;
      assert t in Terms(v);
      var j :| 0 <= j < |keys| && keys[j] == t;
      assert multiset(ts)[t] >= 1;
      WeightBounds(multiset(ts)[t], max, idf[t]);
    }
  }

  /** `b[t] || 0`: the weight of the first entry for `t`, or 0. */
  function Lookup(b: seq<Weight>, t: string): real
  {
    if |b| == 0 then 0.0 else if b[0].term == t then b[0].w else Lookup(b[1..], t)
  }

  /** `Σ w * (b[t] || 0)` over the entries of `a`. */
  function Dot(a: seq<Weight>, b: seq<Weight>): real
  {
    if |a| == 0 then 0.0 else a[0].w * Lookup(b, a[0].term) + Dot(a[1..], b)
  }

  /** `Σ w * w` over the entries of `a`: never negative. */
  function SumSquares(a: seq<Weight>): (r: real)
    ensures r >= 0.0
  {
    if |a| == 0 then 0.0
    else
      var rest := SumSquares(a[1..]);
      SquarePlus(a[0].w, rest);
      a[0].w * a[0].w + rest
  }

  lemma SquarePlus(w: real, rest: real)
    requires rest >= 0.0
    ensures w * w + rest >= 0.0
  {
  }

  lemma PositivePlus(w: real, v: real, rest: real)
    requires w > 0.0 && v > 0.0 && rest >= 0.0
    ensures w * v + rest > 0.0
  {
  }

  /** A positive weight times a non-negative lookup, plus a non-negative rest. */
  lemma HeadSign(d: real, w: real, y: real, rest: real, found: bool)
    requires d == w * y + rest
    requires w > 0.0 && y >= 0.0 && rest >= 0.0
    requires y > 0.0 <==> found
    ensures d >= 0.0
    ensures d > 0.0 <==> found || rest > 0.0
  {
  }

  lemma ProductPositive(x: real, y: real)
    requires x > 0.0 && y > 0.0
    ensures x * y > 0.0
  {
  }

  /** `na && nb ? dot / Math.sqrt(na * nb) : 0`. */
  function CosineOf(dot: real, na: real, nb: real, num: Numerics): real
    requires na >= 0.0 && nb >= 0.0
  {
    if na != 0.0 && nb != 0.0 then
      ProductPositive(na, nb);
      dot / num.sqrt(na * nb)
    else 0.0
  }

  /** `cosine(a, b)`. */
  function Cosine(a: seq<Weight>, b: seq<Weight>, num: Numerics): (r: real)
    ensures SumSquares(a) == 0.0 || SumSquares(b) == 0.0 ==> r == 0.0
  {
    CosineOf(Dot(a, b), SumSquares(a), SumSquares(b), num)
  }

  /** With positive norms, the cosine has the sign of the dot product. */
  lemma CosineOfSign(dot: real, na: real, nb: real, num: Numerics)
    requires dot >= 0.0 && na >= 0.0 && nb >= 0.0
    ensures CosineOf(dot, na, nb, num) >= 0.0
    ensures CosineOf(dot, na, nb, num) > 0.0 <==> dot > 0.0 && na > 0.0 && nb > 0.0
  {
    if na > 0.0 && nb > 0.0 {
      ProductPositive(na, nb);
      var s := num.sqrt(na * nb);
      assert s > 0.0;
      QuotientSign(dot, s);
    }
  }

  /** Every weight is positive, as in any vector built from a positive idf. */
  predicate Positive(v: seq<Weight>) {
    forall i :: 0 <= i < |v| ==> v[i].w > 0.0
  }

  lemma {:induction false} LookupSign(b: seq<Weight>, t: string)
    requires Positive(b)
    ensures Lookup(b, t) >= 0.0
    ensures Lookup(b, t) > 0.0 <==> t in Terms(b)
  {
    if |b| > 0 {
      LookupSign(b[1..], t);
      assert Terms(b) == [b[0].term] + Terms(b[1..]);
    }
  }

  lemma {:induction false} SumSquaresSign(a: seq<Weight>)
    requires Positive(a)
    ensures SumSquares(a) > 0.0 <==> |a| > 0
  {
    if |a| > 0 {
      SumSquaresSign(a[1..]);
      PositivePlus(a[0].w, a[0].w, SumSquares(a[1..]));
    }
  }

  /** The two vectors have a term in common. */
  predicate SharesTerm(a: seq<Weight>, b: seq<Weight>) {
    exists t :: t in Terms(a) && t in Terms(b)
  }

  /** Two positive vectors have a positive dot product exactly when they share a term. */
  lemma {:induction false} DotSign(a: seq<Weight>, b: seq<Weight>)
    requires Positive(a) && Positive(b)
    ensures Dot(a, b) >= 0.0
    ensures Dot(a, b) > 0.0 <==> SharesTerm(a, b)
  {
    if |a| > 0 {
      PositiveTail(a);
      DotSign(a[1..], b);
      LookupSign(b, a[0].term);
      HeadSign(Dot(a, b), a[0].w, Lookup(b, a[0].term), Dot(a[1..], b), a[0].term in Terms(b));
      SharedCons(a, b);
    }
  }

  lemma PositiveTail(a: seq<Weight>)
    requires |a| > 0 && Positive(a)
    ensures Positive(a[1..])
  {
    assert forall i :: 0 <= i < |a| - 1 ==> a[1..][i] == a[i + 1];
  }

  lemma SharedCons(a: seq<Weight>, b: seq<Weight>)
    requires |a| > 0
    ensures SharesTerm(a, b) <==> a[0].term in Terms(b) || SharesTerm(a[1..], b)
  {
    assert Terms(a) == [a[0].term] + Terms(a[1..]);
  }

  /**
   * The cosine of two positive vectors is never negative, and positive
   * exactly when they share a term.
   */
  lemma CosineSign(a: seq<Weight>, b: seq<Weight>, num: Numerics)
    requires Positive(a) && Positive(b)
    ensures Cosine(a, b, num) >= 0.0
    ensures Cosine(a, b, num) > 0.0 <==> SharesTerm(a, b)
  {
    SumSquaresSign(a);
    SumSquaresSign(b);
    DotSign(a, b);
    CosineOfSign(Dot(a, b), SumSquares(a), SumSquares(b), num);
  }

  lemma QuotientSign(x: real, y: real)
    requires y > 0.0 && x >= 0.0
    ensures x / y >= 0.0
    ensures x / y > 0.0 <==> x > 0.0
  {
  }

  /** An empty vector scores 0 against anything. */
  lemma CosineEmpty(a: seq<Weight>, num: Numerics)
    ensures Cosine(a, [], num) == 0.0 && Cosine([], a, num) == 0.0
  {
  }

  /** The relevance of a chunk to `query` over the corpus `chunks`. */
  function Relevance(query: string, chunks: seq<Chunk>, num: Numerics): Chunk -> real
  {
    var idf := BuildIdf(chunks, num);
    var qv := Vectorize(query, idf);
    (c: Chunk) => Cosine(Vectorize(c.text, idf), qv, num)
  }

  /**
   * `retrieveTopChunks(query, sources, k)`: every chunk of the selected
   * sources scored against the query, stably sorted by descending score,
   * the first `k` kept.
   */
  function RetrieveTopChunks(query: string, sources: seq<Source>, k: nat, num: Numerics): (r: seq<Chunk>)
    // `min(k, |chunks|)` chunks of the selected sources, best first, ties in corpus order
    ensures IsTopK(r, AllChunks(sources), Relevance(query, AllChunks(sources), num), k)
    ensures forall i :: 0 <= i < |r| ==> r[i] in AllChunks(sources)
    ensures NoDup(AllChunks(sources)) ==> NoDup(r)
  {
    var all := AllChunks(sources);
    var key := Relevance(query, all, num);
    TopKRanks(all, key, k);
    var r := TopK(all, key, k);
    assert NoDup(all) ==> NoDup(r) by {
      if NoDup(all) { TopKNoDup(all, key, k); }
    }
    assert forall i :: 0 <= i < |r| ==> r[i] in all by {
      forall i | 0 <= i < |r| ensures r[i] in all {
        assert r[i] in multiset(r);
      }
    }
    if |all| == 0 then [] else r
  }

  /** Every weight of a vector built from a corpus idf is positive. */
  lemma CorpusVectorPositive(text: string, chunks: seq<Chunk>, num: Numerics)
    ensures Positive(Vectorize(text, BuildIdf(chunks, num)))
  {
    var idf := BuildIdf(chunks, num);
    var v := Vectorize(text, idf);
    forall i | 0 <= i < |v| ensures v[i].w > 0.0 {
      assert idf[v[i].term] > 0.0;
    }
  }

  /** A chunk of the corpus keeps every one of its terms in its vector. */
  lemma VocabularyCovers(chunks: seq<Chunk>, n: nat)
    requires n < |chunks|
    ensures TermSet(chunks[n].text) <= Vocabulary(chunks)
    decreases |chunks|
  {
    if n < |chunks| - 1 {
      VocabularyCovers(chunks[..|chunks| - 1], n);
    }
  }

  /**
   * A chunk of the corpus scores above 0 exactly when it shares a term
   * with the query, and never scores below 0.
   */
  lemma RelevanceSign(query: string, chunks: seq<Chunk>, num: Numerics, c: Chunk)
    requires c in chunks
    ensures Relevance(query, chunks, num)(c) >= 0.0
    ensures Relevance(query, chunks, num)(c) > 0.0 <==> exists t :: t in Tokenize(c.text) && t in Tokenize(query)
  {
    var idf := BuildIdf(chunks, num);
    var qv := Vectorize(query, idf);
    var cv := Vectorize(c.text, idf);
    var n :| 0 <= n < |chunks| && chunks[n] == c;
    VocabularyCovers(chunks, n);
    CorpusVectorPositive(query, chunks, num);
    CorpusVectorPositive(c.text, chunks, num);
    CosineSign(cv, qv, num);
    if exists t :: t in Tokenize(c.text) && t in Tokenize(query) {
      var t :| t in Tokenize(c.text) && t in Tokenize(query);
      assert t in TermSet(c.text);
      assert t in Terms(cv) && t in Terms(qv);
    }
  }

  /** A query sharing no term with any chunk leaves the corpus order as it was. */
  lemma OutOfVocabularyQuery(query: string, sources: seq<Source>, k: nat, num: Numerics)
    requires forall t :: t in Tokenize(query) ==> t !in Vocabulary(AllChunks(sources))
    ensures RetrieveTopChunks(query, sources, k, num) == Take(AllChunks(sources), k)
  {
    var all := AllChunks(sources);
    var key := Relevance(query, all, num);
    if |all| > 0 {
      var idf := BuildIdf(all, num);
      EmptyQueryVector(query, all, num);
      forall i | 0 <= i < |all| ensures key(all[i]) == 0.0 {
        CosineEmpty(Vectorize(all[i].text, idf), num);
      }
      TopKAllEqual(all, key, k, 0.0);
    }
  }

  /** A query with no term in the vocabulary has an empty vector. */
  lemma EmptyQueryVector(query: string, chunks: seq<Chunk>, num: Numerics)
    requires forall t :: t in Tokenize(query) ==> t !in Vocabulary(chunks)
    ensures Vectorize(query, BuildIdf(chunks, num)) == []
  {
    var v := Vectorize(query, BuildIdf(chunks, num));
    if |v| > 0 {
      assert false;
    }
  }

  /**
   * In a retrieval, chunks that share a term with the query come before
   * chunks that do not; and if any chunk left out shares a term, every
   * chunk kept does too.
   */
  lemma MatchesRankFirst(query: string, sources: seq<Source>, k: nat, num: Numerics)
    ensures forall i, j ::
      (0 <= i < j < |RetrieveTopChunks(query, sources, k, num)| &&
       Matches(query, RetrieveTopChunks(query, sources, k, num)[j])) ==>
      Matches(query, RetrieveTopChunks(query, sources, k, num)[i])
    ensures forall c, j ::
      (c in AllChunks(sources) && c !in RetrieveTopChunks(query, sources, k, num) &&
       Matches(query, c) && 0 <= j < |RetrieveTopChunks(query, sources, k, num)|) ==>
      Matches(query, RetrieveTopChunks(query, sources, k, num)[j])
  {
    MatchesComeFirst(query, sources, k, num);
    MatchesKeptFirst(query, sources, k, num);
  }

  lemma MatchesComeFirst(query: string, sources: seq<Source>, k: nat, num: Numerics)
    ensures var r := RetrieveTopChunks(query, sources, k, num);
      forall i, j :: (0 <= i < j < |r| && Matches(query, r[j])) ==> Matches(query, r[i])
  {
    var all := AllChunks(sources);
    var key := Relevance(query, all, num);
    var r := RetrieveTopChunks(query, sources, k, num);
    if |all| > 0 {
      assert r == TopK(all, key, k);
      forall i, j | 0 <= i < j < |r| && Matches(query, r[j])
        ensures Matches(query, r[i])
      {
        TopKOrdered(all, key, k, i, j);
        TopKFrom(all, key, k, i);
        TopKFrom(all, key, k, j);
        MatchesAbove(query, all, num, r[i], r[j]);
      }
    }
  }

  lemma MatchesKeptFirst(query: string, sources: seq<Source>, k: nat, num: Numerics)
    ensures var r := RetrieveTopChunks(query, sources, k, num);
      forall c, j :: (c in AllChunks(sources) && c !in r && Matches(query, c) && 0 <= j < |r|) ==>
        Matches(query, r[j])
  {
    var all := AllChunks(sources);
    var key := Relevance(query, all, num);
    var r := RetrieveTopChunks(query, sources, k, num);
    if |all| > 0 {
      assert r == TopK(all, key, k);
      forall c, j | c in all && c !in r && Matches(query, c) && 0 <= j < |r|
        ensures Matches(query, r[j])
      {
        TopKAbove(all, key, k, c, j);
        TopKFrom(all, key, k, j);
        MatchesAbove(query, all, num, r[j], c);
      }
    }
  }

  /** A chunk scoring at least as high as a matching chunk matches too. */
  lemma MatchesAbove(query: string, chunks: seq<Chunk>, num: Numerics, a: Chunk, b: Chunk)
    requires a in chunks && b in chunks
    ensures Relevance(query, chunks, num)(a) >= Relevance(query, chunks, num)(b) && Matches(query, b) ==> Matches(query, a)
  {
    RelevanceSign(query, chunks, num, a);
    RelevanceSign(query, chunks, num, b);
  }

  /** The chunk shares at least one term with the query. */
  predicate Matches(query: string, c: Chunk) {
    exists t :: t in Tokenize(c.text) && t in Tokenize(query)
  }
}

=== FILE: tokens.dfy ===
/**
 * Tokenising (`tokenize`): lower-case the text and return every maximal
 * run of `[a-z0-9一-龥]`, left to right.
 */
module Tokens {
  import opened Base
  import opened Chars

  predicate IsWord(w: string) {
    w != "" && forall i :: 0 <= i < |w| ==> IsWordChar(w[i])
  }

  /** The end of the run of word characters starting at `i`. */
  function WordRunEnd(s: string, i: nat): (j: nat)
    requires i <= |s|
    ensures i <= j <= |s|
    ensures forall k :: i <= k < j ==> IsWordChar(s[k])
    ensures j < |s| ==> !IsWordChar(s[j])
    decreases |s| - i
  {
    if i == |s| || !IsWordChar(s[i]) then i else WordRunEnd(s, i + 1)
  }

  /** `s.match(/[a-z0-9一-龥]+/g) || []`: the maximal word runs of `s`. */
  function Words(s: string): (r: seq<string>)
    ensures forall i :: 0 <= i < |r| ==> IsWord(r[i])
    decreases |s|
  {
    if |s| == 0 then []
    else if !IsWordChar(s[0]) then Words(s[1..])
    else
      var e := WordRunEnd(s, 0);
      [s[..e]] + Words(s[e..])
  }

  /**
   * `tokenize(text)`. The same tokens are what `topKeywords` and
   * `pickCitations` extract with `[a-zA-Z0-9一-龥]`: after lowering no
   * capital is left for the wider class to see.
   */
  function Tokenize(text: string): (r: seq<string>)
    ensures forall i :: 0 <= i < |r| ==> IsWord(r[i])
  {
    Words(LowerAll(text))
  }

  /**
   * The pieces between single non-word characters, empty ones included:
   * what `s.split(/[^a-z0-9一-龥]/)` returns.
   */
  function Fields(s: string): (r: seq<string>)
    ensures |r| >= 1
    decreases |s|
  {
    var e := WordRunEnd(s, 0);
    if e == |s| then [s] else [s[..e]] + Fields(s[e + 1..])
  }

  /**
   * The matches are exactly the non-empty fields: no word character is
   * dropped, and two matches are always apart by a non-word character.
   */
  lemma {:induction false} WordsAreFields(s: string)
    ensures Words(s) == NonEmpty(Fields(s))
    decreases |s|
  {
    var e := WordRunEnd(s, 0);
    if |s| == 0 {
    } else if !IsWordChar(s[0]) {
      WordsAreFields(s[1..]);
      assert Fields(s) == [""] + Fields(s[1..]);
    } else if e == |s| {
      assert s[..e] == s && s[e..] == "";
    } else {
      WordsAreFields(s[e + 1..]);
      assert s[e..][1..] == s[e + 1..];
      assert Words(s[e..]) == Words(s[e + 1..]);
    }
  }

  /** Tokenising is splitting the lowered text at non-word characters. */
  lemma TokenizeFields(text: string)
    ensures Tokenize(text) == NonEmpty(Fields(LowerAll(text)))
  {
    WordsAreFields(LowerAll(text));
  }

  /** Punctuation separates tokens and capitals are lowered: `"A,b"` gives `a` and `b`. */
  lemma TokenizeExample()
    ensures Tokenize("A,b") == ["a", "b"]
  {
    var s := LowerAll("A,b");
    assert s == "a,b";
    assert WordRunEnd(s, 0) == 1;
    assert s[2..] == "b" && WordRunEnd("b", 0) == 1;
    assert Fields(s) == ["a", "b"];
    WordsAreFields(s);
  }

  lemma {:induction false} WordsJoin(ws: seq<string>)
    requires forall i :: 0 <= i < |ws| ==> IsWord(ws[i])
    ensures Words(Join(ws, " ")) == ws
  {
    if |ws| == 1 {
      var w := ws[0];
      assert WordRunEnd(w, 0) == |w| by { WholeRun(w, 0); }
      assert w[..|w|] == w && w[|w|..] == "";
    } else if |ws| > 1 {
      var w, j := ws[0], Join(ws[1..], " ");
      var s := w + " " + j;
      assert Join(ws, " ") == s;
      assert WordRunEnd(s, 0) == |w| by {
        assert s[..|w|] == w;
        PrefixRun(s, |w|, 0);
      }
      assert s[..|w|] == w;
      assert s[|w|..] == " " + j;
      assert Words(" " + j) == Words(j) by { assert (" " + j)[1..] == j; }
      WordsJoin(ws[1..]);
    }
  }

  lemma WholeRun(w: string, i: nat)
    requires i <= |w|
    requires forall k :: 0 <= k < |w| ==> IsWordChar(w[k])
    ensures WordRunEnd(w, i) == |w|
    decreases |w| - i
  {
    if i < |w| { WholeRun(w, i + 1); }
  }

  lemma PrefixRun(s: string, n: nat, i: nat)
    requires i <= n < |s|
    requires forall k :: 0 <= k < n ==> IsWordChar(s[k])
    requires !IsWordChar(s[n])
    ensures WordRunEnd(s, i) == n
    decreases n - i
  {
    if i < n { PrefixRun(s, n, i + 1); }
  }

  /**
   * Tokens rejoined with spaces tokenise to themselves: tokenising is
   * idempotent on its own output.
   */
  lemma TokenizeRoundTrip(text: string)
    ensures Tokenize(Join(Tokenize(text), " ")) == Tokenize(text)
  {
    var ts := Tokenize(text);
    var s := Join(ts, " ");
    NoCapitals(ts);
    LowerAllIdentity(s);
    WordsJoin(ts);
  }

  lemma NoCapitals(ts: seq<string>)
    requires forall i :: 0 <= i < |ts| ==> IsWord(ts[i])
    ensures forall i :: 0 <= i < |Join(ts, " ")| ==> !IsUpper(Join(ts, " ")[i])
  {
    if |ts| > 1 {
      NoCapitals(ts[1..]);
      var s := Join(ts, " ");
      assert s == ts[0] + " " + Join(ts[1..], " ");
      forall i | 0 <= i < |s|
        ensures !IsUpper(s[i])
      {
        if i < |ts[0]| {
          assert IsWordChar(ts[0][i]);
        }
      }
    } else if |ts| == 1 {
      assert forall i :: 0 <= i < |ts[0]| ==> IsWordChar(ts[0][i]);
    }
  }
}
